=== FILE: README.md ===
# MCP database server: orchestrator, schema formatters and Ollama client

A Dafny model of the decision core of an MCP server that sits between a
PostgreSQL database and a locally hosted Ollama language model. The model
covers these parts:

- **Orchestrator** (`handleUserRequest`, module `Interaction`). It asks the
  model to choose a tool and matches the reply against
  `<tool_code>NAME(ARGS)</tool_code>`. It splits and unquotes the arguments,
  then dispatches to `textToSqlTool`, `queryTool` or `chatTool`. For
  `textToSqlTool` it re-enters itself with a synthesized `queryTool` call.
- **Tool-call parser** (module `ToolCallParser`). This models the
  regular-expression match, the quote-parity comma split, JavaScript's
  `split(/=(.*)/s)` with its capture group, and quote unescaping.
- **Schema formatters**. `getFormattedSchemaForLLM` writes DDL-like text
  (module `SchemaQueries`). The `schema://main` resource writes a
  "Table:/- col:" listing (module `ServerIndex`).
- **Ollama client** (module `OllamaService`). This covers request payloads,
  SQL reply cleanup (fences and one trailing `;`), empty-reply detection,
  normalisation of every failure into one message, and the choice of
  summary instruction.
- **Tools**. `textToSql` (module `TextToSqlTool`) and `chat` (module
  `ChatTool`).
- **Interactive chat command** (module `ChatCommand`). It classifies each
  input line and keeps the conversation log.

Two external oracles drive the model:

- **The language model.** The orchestrator runs against a script: a
  sequence of `Result<string>`. Each entry is what one client call returns,
  either the text or the message of the error it throws. The clients
  themselves (`ChatCompletion`, `SqlReply`, `GenerateText`) are modelled
  separately, over the HTTP outcome of one call.
- **The database.** It is a `Database` value. It answers every catalog
  query with rows or an error, and maps every SQL text to either the
  serialised rows or an error message.

Other pieces are handled as follows:

- `JSON.stringify` of query rows is opaque: the oracle returns the
  serialised text.
- `JSON.stringify` of a string is modelled exactly, together with its
  inverse. The result wrapper uses it.
- Zod argument checks are modelled as an `Err` result before the handler
  runs.

The orchestrator's recursion has no depth bound in the source. The model
adds none. `Handle` terminates because every level uses at least one
answer of the finite script. A run that asks for more answers than the
script holds is `Exhausted`.

Where the code behaves unexpectedly:

- Arguments are never turned into parameters. Every piece of the argument
  text either has no `=` or splits into three parts, so the
  `parts.length === 2` guard never holds. The parameter map is always
  empty and the parse-error branch cannot be reached (`ParseParams`).
- So `queryTool` always executes `undefined`. When that execution fails,
  the log line in `executeQuery`'s error handler calls `substring` on
  `undefined`, and the resulting `TypeError` replaces the driver's error
  (`ExecuteQuery`, `QueryToolOutcome`).
- On the text-to-SQL path the generated SQL is never executed directly.
  It is sent back to the model as the user turn of a new decision, with no
  refusal check and no no-tables check (`TextToSqlRecursion`,
  `EchoedCallRunsUndefined`).
- The chat client's no-response message names the base URL, not the chat
  endpoint (`NoResponseAtBaseUrl`).

## Model

| member | source | states |
|---|---|---|
| Interaction.DecisionRequestShape | src/tools/interaction.tool.ts:101-112 | the decision request lists the tool prompt, then every history turn in order, then the user's query, with no temperature |
| Interaction.Handle | src/tools/interaction.tool.ts:59-250 | every finished run makes one model request per answer it uses; its first request is the decision for the caller's query and history |
| Interaction.Dispatch | src/tools/interaction.tool.ts:165-238 | only `textToSqlTool` re-enters the orchestrator; only `queryTool` executes SQL; each tool makes one or two model requests |
| Interaction.DecisionFailure | src/tools/interaction.tool.ts:243-249 | a failed decision call ends in `An internal error occurred: <msg>` and nothing else is asked or executed |
| Interaction.DirectAnswer | src/tools/interaction.tool.ts:116-119 | a reply with no tool-call match is returned verbatim as text |
| Interaction.UnknownToolReply | src/tools/interaction.tool.ts:233-237 | a call to any other tool name gives `Unknown tool: <name>. Please check tool definitions.` |
| Interaction.QueryToolOutcome | src/tools/interaction.tool.ts:192-210 | `queryTool` executes `undefined` exactly once; success gives the serialised rows as `sql_result`; failure gives `Failed to execute SQL query: ` followed by the TypeError message |
| Interaction.ChatToolOutcome | src/tools/interaction.tool.ts:211-232 | `chatTool` sends the default system prompt and an undefined message; it returns the answer as text, or `Failed to get chat response: <msg>` |
| Interaction.TextToSqlFailures | src/tools/interaction.tool.ts:166-191 | a schema failure gives an internal error before the generator is asked; a generator failure gives `Failed to generate SQL: <msg>` |
| Interaction.TextToSqlRecursion | src/tools/interaction.tool.ts:170-184 | generated SQL becomes a `queryTool` call that is re-entered with the decision appended to the history; the inner result is returned unchanged |
| Interaction.EchoedCallRunsUndefined | src/tools/interaction.tool.ts:178-203 | even when the model echoes the synthesized call, the query tool runs `undefined`, not the generated SQL |
| Interaction.ExecutesOnlyUndefined | src/tools/interaction.tool.ts:122-197 | across any run, including recursion, at most one query is executed, and it is `undefined` |
| Interaction.ExtraAnswersIgnored | src/tools/interaction.tool.ts:111-184 | a run depends only on the prefix of the model's answers it consumes |
| Interaction.EchoThroughClient | src/services/ollama.service.ts:294-310 | the chat client returns the synthesized call text unchanged |
| Interaction.Wrap | src/tools/interaction.tool.ts:30-54 | an error reply sets `isError` and `errorDetails`; text passes through verbatim; a query result is prefixed by `Query Result:\n` |
| Interaction.WrappedResultRecoverable | src/tools/interaction.tool.ts:36-47 | the query result text, after its title, is the JSON string literal of the serialised rows, and parsing it gives them back |
| Interaction.InteractionTool | src/tools/interaction.tool.ts:12-55 | an empty query is rejected; otherwise the tool response is the orchestrator's reply wrapped as `Wrap` states, so it flags an error exactly when the reply is an error |
| ToolCallParser.MatchToolCallSpec | src/tools/interaction.tool.ts:116-117 | the match is the leftmost start, then the longest single-line argument capture; there is no match exactly when no `<tool_code>NAME(ARGS)</tool_code>` occurs anywhere |
| ToolCallParser.EvenQuotesCount | src/tools/interaction.tool.ts:126 | the lookahead's parity flag is the parity of the number of `'` and `"` characters after the comma |
| ToolCallParser.SplitArgsFirst | src/tools/interaction.tool.ts:125-126 | the first piece ends at the first comma followed by an even number of quote characters; the rest is the split of the text after that comma and its whitespace |
| ToolCallParser.SplitArgsWhole | src/tools/interaction.tool.ts:125-126 | with no such comma the argument text is one piece |
| ToolCallParser.SplitOnEquals | src/tools/interaction.tool.ts:128 | `split(/=(.*)/s)` gives three parts (before the first `=`, after it, and an empty part) when `=` occurs, and one part otherwise |
| ToolCallParser.ParamsUnchanged | src/tools/interaction.tool.ts:127-145 | no piece adds a parameter, so the map is left as it was |
| ToolCallParser.ParseParams | src/tools/interaction.tool.ts:124-163 | parsing never fails and always yields the empty parameter map |
| ToolCallParser.UnquoteEscaped | src/tools/interaction.tool.ts:134-142 | escaping every quote and then unquoting with the same quote gives the text back |
| ToolCallParser.UnquoteUnwrapped | src/tools/interaction.tool.ts:134-143 | a value not wrapped in one kind of quote is unchanged |
| ToolCallParser.UnescapeEscape | src/tools/interaction.tool.ts:179-182 | `replace(/\\'/g, "'")` undoes `replace(/'/g, "\\'")` on any text |
| ToolCallParser.QueryCallForMatches | src/tools/interaction.tool.ts:178-184 | for one-line SQL the synthesized text is a `queryTool` call whose whole quoted value unquotes to the SQL |
| SchemaQueries.ExecuteQuery | src/database/queries.ts:5-19 | the rows, or the driver's error rethrown unchanged; for `undefined` SQL the handler's `TypeError` replaces it |
| SchemaQueries.PlainColumn | src/database/queries.ts:60-61 | a nullable column with no length and no default is `  <name> <type>` |
| SchemaQueries.NotNullInserted | src/database/queries.ts:65-67 | only `is_nullable` equal to `NO` inserts ` NOT NULL`, between the type and the default |
| SchemaQueries.DefaultAndLengthTruthiness | src/database/queries.ts:62-77 | a non-empty default appends ` DEFAULT <expr>` verbatim; an empty default and a zero length add nothing |
| SchemaQueries.ColumnListAppend | src/database/queries.ts:60-80 | column lines are joined by `,\n` in row order |
| SchemaQueries.ColumnAppended | src/database/queries.ts:39-99 | one more column row adds `,\n` and its line just before the key clause |
| SchemaQueries.KeyClausePlacement | src/database/queries.ts:94-99 | `,\n  PRIMARY KEY (...)` appears exactly when the key list is non-empty, just before the closing `\n);` |
| SchemaQueries.TableBlockEnds | src/database/queries.ts:39-99 | each block opens with `\nCREATE TABLE <schema>.<table> (\n` and closes with `\n);\n` |
| SchemaQueries.TableBlocks | src/database/queries.ts:37-100 | the loop sends columns-then-key queries per table, stops at the first failure and rethrows its message |
| SchemaQueries.BlocksInOrder | src/database/queries.ts:37-100 | with every query answered, the text is each table's block in catalog order |
| SchemaQueries.FormattedSchema | src/database/queries.ts:21-34 | the schema defaults to `test`; no tables gives exactly `-- No tables found in '<schema>' schema.` after one query; otherwise the text starts with the header |
| SchemaQueries.DdlFetch | src/database/queries.ts:36-102 | the DDL text starts with the header line, and failures stop the fetch at the failing query |
| SchemaQueries.DdlTrimmed | src/database/queries.ts:99-102 | the final trim removes only the last newline |
| SchemaQueries.DdlInOrder | src/database/queries.ts:36-102 | the whole text is the header and every block in order, trimmed, after 1 + 2n queries |
| ServerIndex.ColumnLine | index.ts:142-146 | a column line is `  - <name>: <type>`, followed by ` (NULLABLE)` exactly when `is_nullable` is `YES` and by ` (NOT NULL)` otherwise, and it is exactly as long as those two parts |
| ServerIndex.Sections | index.ts:130-148 | one column query per table; the loop stops at the first failure with its message |
| ServerIndex.SchemaResource | index.ts:107-172 | no tables gives `No tables found in 'public' schema.`; a failing tables query or the first failing column query gives `Error fetching schema: <msg>`, after which no query goes out; otherwise the listing starts with its title, after one column query per table |
| ServerIndex.SectionsFailAt | index.ts:130-148 | the per-table loop stops at the first table whose column query fails, rethrows its message, and has sent the column queries up to that table in order |
| ServerIndex.ColumnFailureReported | index.ts:113-170 | when a column query fails, the resource is `Error fetching schema: <msg>` for the first failing table, after the tables query and the column queries up to it |
| ServerIndex.ListingTrim | index.ts:129-154 | trimming keeps the title at the front |
| ServerIndex.SectionsInOrder | index.ts:130-148 | every table's `Table:` section, followed by a blank line, in catalog order |
| ServerIndex.ListingInOrder | index.ts:129-157 | the listing is the title, a blank line and each section in order, trimmed |
| ServerIndex.QueryTool | index.ts:176-209 | success gives the serialised rows; failure gives `Error executing query: <msg>` with `isError` |
| OllamaService.ErrorDetail | src/services/ollama.service.ts:96-100 | a non-empty `error` field, else a string body, else the axios message |
| OllamaService.ErrorMessage | src/services/ollama.service.ts:80-116 | an HTTP error gives `Ollama API Error (<status>): <detail>` with the detail chosen by `ErrorDetail`; no response gives `No response from Ollama API. <address question> Details: <msg>`; a setup error gives the client's setup prefix and the message; a plain `Error` keeps its message; anything else gives the client's unknown-error text |
| OllamaService.NoResponseAtChatUrl | src/services/ollama.service.ts:102-106 | the SQL client's no-response message asks `Is it running at <baseUrl>/api/chat?` before the details |
| OllamaService.NoResponseAtGenerateUrl | src/services/ollama.service.ts:212-216 | the generate client's no-response message asks `Is it running at <baseUrl>/api/generate?` before the details |
| OllamaService.NoResponseAtBaseUrl | src/services/ollama.service.ts:335-339 | the chat client's no-response message asks `Is <baseUrl> accessible?`, naming the base URL and not the chat endpoint |
| OllamaService.HttpErrorDetail | src/services/ollama.service.ts:96-101 | the HTTP error text ends with the body's non-empty `error` field, else a text body, else the client's own message |
| OllamaService.ErrorKindsDistinct | src/services/ollama.service.ts:80-116 | apart from a plain `Error`, the message prefix tells which kind of failure happened |
| OllamaService.HttpStatusRecoverable | src/services/ollama.service.ts:101 | the HTTP status can be read back from the digits in the message |
| OllamaService.SqlRequest | src/services/ollama.service.ts:35-53 | the SQL request is the fixed system prompt and a user turn of schema, then question, at temperature 0.1; the user turn is exactly as long as its schema part and its question part together |
| OllamaService.StripSemicolon | src/services/ollama.service.ts:77 | the result is the input, or the input with one `;` and the whitespace after it removed |
| OllamaService.StripSemicolonOnce | src/services/ollama.service.ts:77 | exactly one trailing `;` goes: `a;;` becomes `a;`, and whitespace before it stays |
| OllamaService.StripSemicolonKeeps | src/services/ollama.service.ts:77 | a text not ending in `;` is unchanged |
| OllamaService.StripFencesOf | src/services/ollama.service.ts:76 | a case-insensitive ```` ```sql ```` fence and the whitespace inside it are removed |
| OllamaService.CleanSql | src/services/ollama.service.ts:63-79 | a missing or blank reply fails with the extraction message, and only such a reply does |
| OllamaService.FencedReplyUnwrapped | src/services/ollama.service.ts:63-79 | a fenced reply gives back exactly the query inside the fence |
| OllamaService.PlainReplyKept | src/services/ollama.service.ts:63-79 | a reply with no fence and no trailing `;` is returned trimmed and otherwise unchanged |
| OllamaService.SqlReply | src/services/ollama.service.ts:55-117 | the SQL client returns the cleaned reply, or the normalised message of a failed call |
| OllamaService.ChatCompletionRequest | src/services/ollama.service.ts:281-285 | the chat request carries the messages unchanged and no temperature |
| OllamaService.ChatCompletion | src/services/ollama.service.ts:287-356 | the result is the trimmed, non-empty reply; an empty reply fails with the extraction message |
| OllamaService.GenerateRequestFor | src/services/ollama.service.ts:159-166 | the generate request carries the prompt, model and temperature |
| OllamaService.GenerateText | src/services/ollama.service.ts:168-227 | the result is the trimmed, non-empty `response`; an empty one fails with the extraction message |
| OllamaService.RepliesAreTrimmed | src/services/ollama.service.ts:175-188 | both clients hand back a reply without its surrounding whitespace |
| OllamaService.LengthOf | src/services/ollama.service.ts:230-233 | an omitted length means `medium` |
| OllamaService.SummaryLengthsDistinct | src/services/ollama.service.ts:234-250 | `brief`, `medium` and `detailed` select three distinct sentences; any other value selects `Provide a concise summary.` |
| OllamaService.SummaryPromptParts | src/services/ollama.service.ts:252-262 | the prompt opens with the instructions line and closes with the text between `---` lines |
| OllamaService.SummarizeRequest | src/services/ollama.service.ts:252-269 | one generate request with the configured model at temperature 0.5 |
| OllamaService.Summarize | src/services/ollama.service.ts:264-275 | the summary is non-empty and trimmed at both ends, so trimming it again changes nothing; failures are rethrown |
| TextToSqlTool.Failure | src/tools/textToSql.tool.ts:41-53 | `Error generating SQL: ` followed by the first 500 characters of the message, so at most 522 characters |
| TextToSqlTool.TextToSql | src/tools/textToSql.tool.ts:11-54 | a query shorter than 3 is rejected; the generator is asked exactly when the schema fetch succeeded without the no-tables marker; a schema failure or a generator failure gives `Error generating SQL: ` and the start of its message; the no-tables marker gives the empty-schema error; returned SQL is the answer, flagged as an error exactly when it is a refusal |
| TextToSqlTool.NoTablesShortCircuit | src/tools/textToSql.tool.ts:18-29 | an empty default schema gives the fixed error and the generator is never asked |
| TextToSqlTool.RefusalKeptVerbatim | src/tools/textToSql.tool.ts:36-38 | a reply starting with `error:` in any case is returned verbatim with `isError` |
| TextToSqlTool.FailureDetail | src/tools/textToSql.tool.ts:48 | the text after the prefix is a prefix of the message, of length `min(|message|, 500)` |
| ChatTool.PromptOr | src/tools/chat.tool.ts:31 | an absent or empty system prompt falls back to the default |
| ChatTool.ChatTurns | src/tools/chat.tool.ts:26-39 | empty history gives `[system, user]`; otherwise the history in order, then the user turn; the length is 2 or `|history|+1` |
| ChatTool.Chat | src/tools/chat.tool.ts:17-68 | an empty message is rejected; success returns the reply verbatim; failure returns the prefixed message with `isError` and `errorDetails` |
| ChatTool.HistoryOverridesPrompt | src/tools/chat.tool.ts:28-36 | with a history, the system prompt argument has no effect |
| ChatTool.ErrorTextCarriesDetails | src/tools/chat.tool.ts:54-66 | an error's text is its details after the prefix |
| ChatCommand.ActivePrompt | src/cli/commands/chat.command.ts:43-44 | the session prompt is the given one or the default, and never empty |
| ChatCommand.Classify | src/cli/commands/chat.command.ts:69-90 | `/quit` and `/exit` in any case end the session; `/history` shows the log; empty input is skipped; anything else is sent |
| ChatCommand.AfterCall | src/cli/commands/chat.command.ts:98-131 | a thrown call leaves the log unchanged; otherwise a system turn is added if the log was empty, then the user turn, then the assistant turn only for a non-error result with content, so the log grows by exactly two or one turns |
| ChatCommand.AfterCallExtends | src/cli/commands/chat.command.ts:105-126 | a call only extends the log and keeps exactly one leading system turn |
| ChatCommand.HistoryListing | src/cli/commands/chat.command.ts:76-86 | an empty log prints `[system] <prompt>`; otherwise the last lines are `[<role>] <content>`, one per turn, in log order |
| ChatCommand.Converse | src/cli/commands/chat.command.ts:56-133 | one log is threaded through the run: the first call sends the starting log, each later call sends the log the previous call left behind (`AfterCall` of its message and result), the final log is what the last call left, and each `/history` listing prints the log as it stood then, in order; every call carries the session prompt and a non-empty message |
| ChatCommand.TrimmedLines | src/cli/commands/chat.command.ts:66 | typed lines are trimmed before use |
| ChatCommand.Session | src/cli/commands/chat.command.ts:38-137 | a session threads the log from empty: the first call sends no history and every later call and listing sees the log the earlier calls recorded |
| ChatCommand.TypedLinesTrimmed | src/cli/commands/chat.command.ts:59-67 | padded commands and blank typed lines are classified as if unpadded |
| ChatCommand.SendRecorded | src/cli/commands/chat.command.ts:92-126 | a sent line's call carries the log as it stands and the rest of the run continues from `AfterCall` of that call |
| ChatCommand.ListingRecorded | src/cli/commands/chat.command.ts:76-86 | a `/history` line prints the log as it stands and changes nothing else |
| ChatCommand.SecondCallSeesFirstTurn | src/cli/commands/chat.command.ts:92-126 | after one answered message from an empty log, the next call's history is the system turn, that message and its answer |
| ChatCommand.CommandsKeepLog | src/cli/commands/chat.command.ts:76-90 | `/history` and blank lines leave the log, the calls and their results as they are; `/history` adds one listing |
| ChatCommand.ServerSeesLog | src/cli/commands/chat.command.ts:92-111 | the turns the chat tool builds from a call's arguments are the client's log right after it records the user turn |
| ChatCommand.QuitStops | src/cli/commands/chat.command.ts:69-74 | `/QUIT` ends the session and later lines are never read |
| ChatCommand.CallsFollowInput | src/cli/commands/chat.command.ts:56-133 | the tool is called once per sent line, in input order, with that line's text, and the transcript records that line's result |

## Left out

- HTTP through axios, including its 60-second timeout, the `pg` pool and its lifecycle, stdio transports, readline and signal handling. They are I/O: the language model and the database are oracles, and typed lines are a given sequence.
- `JSON.stringify` of query rows and `JSON.parse`. They are opaque serialisers, so the database oracle returns the serialised rows.
- Console logging. The one exception is the `substring` call in `executeQuery`'s error handler, because it changes the thrown error.
- Zod schemas. They appear only as the minimum-length checks of `textToSql`, `chat` and `interaction`, and as `Turn` for history items.
- The Jira, OpenAI and AppSync clients, the student-spend and `add` tools, and CLI registration and glue. These are foreign API clients, floating point, or thin wrappers.
- Environment configuration. `Config` is a parameter, and `DefaultConfig` holds the documented defaults.
- Interaction.Handle: it terminates on the length of the model's answer script rather than on a separate fuel counter. A run that would ask for more answers than the script holds is `Exhausted` instead of looping.
- Interaction.Dispatch: `params.history` is not modelled for `chatTool`. The parameter map is always empty, so it is always `[]`.
- OllamaService.ErrorDetail: an `error` field is taken to be a string or absent. Non-string truthy values are not modelled.
- TextToSqlTool.Failure: it counts 500 Unicode code points, while JavaScript counts UTF-16 code units. They differ only for characters outside the Basic Multilingual Plane.
- TextToSqlTool.TextToSql: the 3-character minimum is counted in code points, for the same reason.
- ChatCommand.Classify: `toLowerCase` is modelled on ASCII letters only. This is exact for comparisons with `/quit`, `/exit`, `/history` and `error:`.
- ChatCommand.Session: the loop ends when the given lines run out. The program would instead wait for more input.
- The alphabetical and ordinal orderings of catalog rows are the database's `ORDER BY`. The model takes rows in the order the oracle gives them.

=== FILE: chatcommand.dfy ===
/** The interactive `chat` command: it reads lines, recognises the
    `/quit`, `/exit` and `/history` commands, calls the `chat` tool with a
    snapshot of the conversation log, and extends the log afterwards. */
module ChatCommand {
  import opened Results
  import opened JsText
  import opened Messages
  import ChatTool

  /** `this.systemPrompt || default`: the prompt the session uses. */
  function ActivePrompt(systemPrompt: Option<string>): (p: string)
    ensures p != []
    ensures p == ChatTool.PromptOr(systemPrompt)
  {
    if systemPrompt.Some? && systemPrompt.value != [] then systemPrompt.value else ChatTool.DefaultSystemPrompt
  }

  /** What a line of input asks for. */
  datatype Command = Quit | ShowHistory | Skip | Send(message: string)

  function Classify(input: string): (c: Command)
    ensures c == Quit <==> ToLower(input) == "/quit" || ToLower(input) == "/exit"
    ensures c == ShowHistory <==> ToLower(input) == "/history"
    ensures c == Skip <==> input == []
    ensures c.Send? ==> c.message == input
  {
    var l := ToLower(input);
    if l == "/quit" || l == "/exit" then Quit
    else if l == "/history" then ShowHistory
    else if input == [] then Skip
    else Send(input)
  }

  /** What the client got back from calling the tool: a thrown error, or a
      result with its error flag and, when present, its content texts. */
  datatype CallResult = Threw(message: string) | Returned(isError: bool, content: Option<seq<string>>)

  /** One line of input, and what the tool call returns if the line is sent. */
  datatype Line = Line(text: string, result: CallResult)

  /** The tool arguments of one call. */
  datatype ChatArgs = ChatArgs(newMessage: string, history: seq<Turn>, systemPrompt: string)

  /** The first content text, or the empty text. */
  function FirstText(content: seq<string>): string {
    if |content| > 0 then content[0] else ""
  }

  /** The log after a call: unchanged if the call threw; otherwise the
      system turn if the log was empty, the user turn, and the assistant's
      answer unless the result was an error or had no content. */
  function AfterCall(active: string, log: seq<Turn>, message: string, result: CallResult): (log': seq<Turn>)
    ensures result.Threw? ==> log' == log
    ensures result.Returned? ==>
              var base := if log == [] then [Turn(System, active)] else log;
              |log'| > |base| && log'[..|base|] == base && log'[|base|] == Turn(User, message)
    ensures result.Returned? ==>
              var base := if log == [] then [Turn(System, active)] else log;
              (|log'| == |base| + 2 <==> !result.isError && result.content.Some?) &&
              (|log'| == |base| + 2 ==> log'[|base| + 1] == Turn(Assistant, FirstText(result.content.value)))
    ensures result.Returned? ==>
              var base := if log == [] then [Turn(System, active)] else log;
              |log'| == |base| + (if !result.isError && result.content.Some? then 2 else 1)
  {
    match result
    case Threw(_) => log
    case Returned(isError, content) =>
      var base := if log == [] then [Turn(System, active)] else log;
      var answered := if !isError && content.Some? then [Turn(Assistant, FirstText(content.value))] else [];
      assert (base + [Turn(User, message)] + answered)[..|base|] == base;
      base + [Turn(User, message)] + answered
  }

  /** The log holds no turn, or exactly one system turn, the session's
      prompt, in front. */
  predicate WellFormedLog(log: seq<Turn>, active: string) {
    log == [] || (log[0] == Turn(System, active) && forall i :: 1 <= i < |log| ==> log[i].role != System)
  }

  predicate IsPrefix(a: seq<Turn>, b: seq<Turn>) {
    |a| <= |b| && b[..|a|] == a
  }

  /** A call only ever extends the log, and keeps it well formed. */
  lemma AfterCallExtends(active: string, log: seq<Turn>, message: string, result: CallResult)
    requires WellFormedLog(log, active)
    ensures var log' := AfterCall(active, log, message, result);
            IsPrefix(log, log') && WellFormedLog(log', active)
  {
    var log' := AfterCall(active, log, message, result);
    if result.Returned? {
      var base := if log == [] then [Turn(System, active)] else log;
      assert log'[0] == base[0];
      forall i | 1 <= i < |log'|
        ensures log'[i].role != System
      {
        if i < |base| {
          assert log'[i] == log'[..|base|][i];
        }
      }
    }
  }

  /** The lines `/history` prints: the prompt when the log is empty, then
      each turn as `[role] content`. */
  function HistoryListing(log: seq<Turn>, active: string): (lines: seq<string>)
    ensures |lines| == |log| + (if log == [] && active != [] then 1 else 0)
    ensures log == [] && active != [] ==> lines == ["[system] " + active]
    ensures forall i :: 0 <= i < |log| ==> lines[|lines| - |log| + i] == "[" + log[i].role.Name() + "] " + log[i].content
  {
    var head := if log == [] && active != [] then ["[system] " + active] else [];
    head + seq(|log|, i requires 0 <= i < |log| => "[" + log[i].role.Name() + "] " + log[i].content)
  }

  /** What one `/history` printed, and how many calls had been made before it. */
  datatype Listing = Listing(afterCalls: nat, lines: seq<string>)

  /** The effect of a run of input lines: the final log, the calls made and
      what each returned, the listings printed, and whether the user quit. */
  datatype Transcript = Transcript(log: seq<Turn>, calls: seq<ChatArgs>, results: seq<CallResult>, listings: seq<Listing>, quit: bool)

  /** The log in force once the first `n` calls are recorded: the history
      sent with call `n`, or the final log when no call follows. */
  function LogAfterCalls(t: Transcript, n: nat): seq<Turn>
    requires n <= |t.calls|
  {
    if n < |t.calls| then t.calls[n].history else t.log
  }

  /** One log is threaded through the run: it starts as `log`, each call
      sends the log as it stands and then records its turn with
      `AfterCall`, and each listing prints the log as it stood then, in
      order. Commands and blank lines change nothing. */
  predicate RecordsEachCall(active: string, log: seq<Turn>, t: Transcript) {
    |t.results| == |t.calls|
    && LogAfterCalls(t, 0) == log
    && (forall k :: 0 <= k < |t.calls| ==>
          LogAfterCalls(t, k + 1) == AfterCall(active, t.calls[k].history, t.calls[k].newMessage, t.results[k]))
    && (forall j :: 0 <= j < |t.listings| ==>
          t.listings[j].afterCalls <= |t.calls| &&
          t.listings[j].lines == HistoryListing(LogAfterCalls(t, t.listings[j].afterCalls), active))
    && (forall j :: 0 <= j < |t.listings| - 1 ==> t.listings[j].afterCalls <= t.listings[j + 1].afterCalls)
  }

  /** The transcript of a sent line followed by the rest of the run. */
  function AfterSend(call: ChatArgs, result: CallResult, rest: Transcript): Transcript {
    Transcript(rest.log, [call] + rest.calls, [result] + rest.results,
               seq(|rest.listings|, j requires 0 <= j < |rest.listings| =>
                 rest.listings[j].(afterCalls := rest.listings[j].afterCalls + 1)),
               rest.quit)
  }

  /** A sent line starts the thread from the log it carries. */
  lemma SendRecorded(active: string, log: seq<Turn>, m: string, r: CallResult, rest: Transcript)
    requires RecordsEachCall(active, AfterCall(active, log, m, r), rest)
    ensures RecordsEachCall(active, log, AfterSend(ChatArgs(m, log, active), r, rest))
  {
    var t := AfterSend(ChatArgs(m, log, active), r, rest);
    assert forall n :: 0 <= n <= |rest.calls| ==> LogAfterCalls(t, n + 1) == LogAfterCalls(rest, n);
    forall k | 0 <= k < |t.calls|
      ensures LogAfterCalls(t, k + 1) == AfterCall(active, t.calls[k].history, t.calls[k].newMessage, t.results[k])
    {
      if k > 0 {
        assert t.calls[k] == rest.calls[k - 1] && t.results[k] == rest.results[k - 1];
        assert LogAfterCalls(t, k) == LogAfterCalls(rest, k - 1);
      }
    }
    forall j | 0 <= j < |t.listings|
      ensures t.listings[j].afterCalls <= |t.calls|
      ensures t.listings[j].lines == HistoryListing(LogAfterCalls(t, t.listings[j].afterCalls), active)
    {
      assert t.listings[j].afterCalls == rest.listings[j].afterCalls + 1;
    }
  }

  /** A sent line's call carries the log as it stands, and the log it
      leaves behind only grows in the rest of the run. */
  lemma SendKeepsShape(active: string, log: seq<Turn>, m: string, r: CallResult, rest: Transcript)
    requires m != [] && WellFormedLog(log, active)
    requires var next := AfterCall(active, log, m, r);
             IsPrefix(log, next) && WellFormedLog(next, active) &&
             IsPrefix(next, rest.log) && WellFormedLog(rest.log, active)
    requires forall k :: 0 <= k < |rest.calls| ==>
               rest.calls[k].systemPrompt == active && rest.calls[k].newMessage != [] &&
               WellFormedLog(rest.calls[k].history, active) && IsPrefix(rest.calls[k].history, rest.log)
    ensures var t := AfterSend(ChatArgs(m, log, active), r, rest);
            WellFormedLog(t.log, active) && IsPrefix(log, t.log) &&
            t.calls[0].history == log &&
            forall k :: 0 <= k < |t.calls| ==>
              t.calls[k].systemPrompt == active && t.calls[k].newMessage != [] &&
              WellFormedLog(t.calls[k].history, active) && IsPrefix(t.calls[k].history, t.log)
  {
    var next := AfterCall(active, log, m, r);
    assert rest.log[..|next|][..|log|] == rest.log[..|log|];
    var t := AfterSend(ChatArgs(m, log, active), r, rest);
    forall k | 0 <= k < |t.calls|
      ensures t.calls[k].systemPrompt == active && t.calls[k].newMessage != []
      ensures WellFormedLog(t.calls[k].history, active) && IsPrefix(t.calls[k].history, t.log)
    {
      if k > 0 {
        assert t.calls[k] == rest.calls[k - 1];
      }
    }
  }

  /** A `/history` line prints the log as it stands before the rest of the run. */
  lemma ListingRecorded(active: string, log: seq<Turn>, rest: Transcript)
    requires RecordsEachCall(active, log, rest)
    ensures RecordsEachCall(active, log, rest.(listings := [Listing(0, HistoryListing(log, active))] + rest.listings))
  {
    var t := rest.(listings := [Listing(0, HistoryListing(log, active))] + rest.listings);
    assert LogAfterCalls(t, 0) == log;
    forall j | 0 <= j < |t.listings|
      ensures t.listings[j].afterCalls <= |t.calls|
      ensures t.listings[j].lines == HistoryListing(LogAfterCalls(t, t.listings[j].afterCalls), active)
    {
      if j > 0 {
        assert t.listings[j] == rest.listings[j - 1];
      }
    }
    forall j | 0 <= j < |t.listings| - 1
      ensures t.listings[j].afterCalls <= t.listings[j + 1].afterCalls
    {
      if j > 0 {
        assert t.listings[j] == rest.listings[j - 1] && t.listings[j + 1] == rest.listings[j];
      }
    }
  }

  /** The loop from a given log over the remaining lines. */
  function Converse(active: string, log: seq<Turn>, lines: seq<Line>): (t: Transcript)
    requires WellFormedLog(log, active)
    ensures WellFormedLog(t.log, active) && IsPrefix(log, t.log)
    ensures |t.calls| > 0 ==> t.calls[0].history == log
    ensures forall k :: 0 <= k < |t.calls| ==>
              t.calls[k].systemPrompt == active && t.calls[k].newMessage != [] &&
              WellFormedLog(t.calls[k].history, active) && IsPrefix(t.calls[k].history, t.log)
    ensures RecordsEachCall(active, log, t)
    decreases |lines|
  {
    if |lines| == 0 then Transcript(log, [], [], [], false)
    else
      match Classify(lines[0].text)
      case Quit => Transcript(log, [], [], [], true)
      case ShowHistory =>
        var rest := Converse(active, log, lines[1..]);
        ListingRecorded(active, log, rest);
        rest.(listings := [Listing(0, HistoryListing(log, active))] + rest.listings)
      case Skip => Converse(active, log, lines[1..])
      case Send(m) =>
        AfterCallExtends(active, log, m, lines[0].result);
        var rest := Converse(active, AfterCall(active, log, m, lines[0].result), lines[1..]);
        SendRecorded(active, log, m, lines[0].result, rest);
        SendKeepsShape(active, log, m, lines[0].result, rest);
        AfterSend(ChatArgs(m, log, active), lines[0].result, rest)
  }

  /** The typed lines, trimmed as `rl.question(...)).trim()` does. */
  function TrimmedLines(typed: seq<Line>): (lines: seq<Line>)
    ensures |lines| == |typed|
    ensures forall k :: 0 <= k < |typed| ==> lines[k].text == Trim(typed[k].text) && lines[k].result == typed[k].result
  {
    seq(|typed|, k requires 0 <= k < |typed| => typed[k].(text := Trim(typed[k].text)))
  }

  /** The lines the loop reads: the initial message as given, then the
      typed lines. */
  function Inputs(initial: Option<Line>, typed: seq<Line>): seq<Line> {
    (if initial.Some? then [initial.value] else []) + TrimmedLines(typed)
  }

  /** `runMcpCommand`: a session from an empty log. */
  function Session(systemPrompt: Option<string>, initial: Option<Line>, typed: seq<Line>): (t: Transcript)
    ensures WellFormedLog(t.log, ActivePrompt(systemPrompt))
    ensures |t.calls| > 0 ==> t.calls[0].history == []
    ensures RecordsEachCall(ActivePrompt(systemPrompt), [], t)
  {
    Converse(ActivePrompt(systemPrompt), [], Inputs(initial, typed))
  }

  /** Typed input is trimmed before it is classified, so padded commands
      and blank lines are recognised; the initial message is not. */
  lemma TypedLinesTrimmed(w: string, c: string, w': string, r: CallResult)
    requires AllSpace(w) && AllSpace(w')
    requires c == [] || (!IsSpace(c[0]) && !IsSpace(c[|c| - 1]))
    ensures Classify(Inputs(None, [Line(w + c + w', r)])[0].text) == Classify(c)
  {
    assert Inputs(None, [Line(w + c + w', r)])[0] == TrimmedLines([Line(w + c + w', r)])[0];
    TrimAroundSpaces(w, c, w');
  }

  /** The conversation the `chat` tool builds from a call's arguments is the
      client's log right after it records the user turn: the server adds
      the system turn exactly when the client does. */
  lemma ServerSeesLog(active: string, log: seq<Turn>, message: string, isError: bool, content: Option<seq<string>>)
    requires WellFormedLog(log, active) && active != []
    ensures var log' := AfterCall(active, log, message, Returned(isError, content));
            var sent := ChatTool.ChatTurns(message, log, Some(active));
            IsPrefix(sent, log') && |log'| - |sent| == (if !isError && content.Some? then 1 else 0)
  {
    var log' := AfterCall(active, log, message, Returned(isError, content));
    var sent := ChatTool.ChatTurns(message, log, Some(active));
    var base := if log == [] then [Turn(System, active)] else log;
    assert sent == sent[..|sent| - 1] + [sent[|sent| - 1]];
    assert sent == base + [Turn(User, message)];
    assert log'[..|sent|] == log'[..|base|] + [log'[|base|]];
  }

  /** After one answered message, the next call carries the system turn,
      that message and its answer. */
  lemma SecondCallSeesFirstTurn(active: string, a: string, answer: string, b: string, r: CallResult)
    requires Classify(a).Send? && Classify(b).Send?
    ensures var t := Converse(active, [], [Line(a, Returned(false, Some([answer]))), Line(b, r)]);
            |t.calls| == 2 &&
            t.calls[1].history == [Turn(System, active), Turn(User, a), Turn(Assistant, answer)]
  {
    var first := Returned(false, Some([answer]));
    var lines := [Line(a, first), Line(b, r)];
    assert lines[1..] == [Line(b, r)] && lines[1..][1..] == [];
    assert SentLines(lines[1..][1..]) == [];
    assert SentLines(lines[1..]) == [Line(b, r)];
    assert SentLines(lines) == lines;
    CallsFollowInput(active, [], lines);
    var t := Converse(active, [], lines);
    assert |t.calls| == 2;
    assert t.calls[0].newMessage == a && t.results[0] == first;
    assert t.calls[0].history == LogAfterCalls(t, 0) == [];
    assert t.calls[1].history == LogAfterCalls(t, 1) == AfterCall(active, [], a, first);
  }

  /** `/history` and a blank line leave the log and the calls as they are. */
  lemma CommandsKeepLog(active: string, log: seq<Turn>, l: Line, more: seq<Line>)
    requires WellFormedLog(log, active)
    requires Classify(l.text) == ShowHistory || Classify(l.text) == Skip
    ensures var t, rest := Converse(active, log, [l] + more), Converse(active, log, more);
            t.log == rest.log && t.calls == rest.calls && t.results == rest.results &&
            |t.listings| == |rest.listings| + (if Classify(l.text) == ShowHistory then 1 else 0)
  {
    assert ([l] + more)[0] == l && ([l] + more)[1..] == more;
  }

  /** `/quit` ends the session: later lines are never read. */
  lemma QuitStops(active: string, log: seq<Turn>, r: CallResult, more: seq<Line>)
    requires WellFormedLog(log, active)
    ensures Converse(active, log, [Line("/QUIT", r)] + more) == Transcript(log, [], [], [], true)
  {
    assert ([Line("/QUIT", r)] + more)[0].text == "/QUIT";
    assert ToLower("/QUIT") == "/quit";
  }

  /** The lines a run sends: those that are neither commands nor blank, up
      to the first quit. */
  function SentLines(lines: seq<Line>): seq<Line>
    decreases |lines|
  {
    if |lines| == 0 then []
    else
      match Classify(lines[0].text)
      case Quit => []
      case Send(_) => [lines[0]] + SentLines(lines[1..])
      case _ => SentLines(lines[1..])
  }

  /** The loop calls the tool once per sent line, in input order, and
      records what that line's call returned. */
  lemma {:induction false} CallsFollowInput(active: string, log: seq<Turn>, lines: seq<Line>)
    requires WellFormedLog(log, active)
    ensures var t := Converse(active, log, lines);
            |t.calls| == |SentLines(lines)| &&
            forall k :: 0 <= k < |t.calls| ==>
              t.calls[k].newMessage == SentLines(lines)[k].text && t.results[k] == SentLines(lines)[k].result
    decreases |lines|
  {
    if |lines| > 0 {
      match Classify(lines[0].text)
      case Quit =>
      case ShowHistory => CallsFollowInput(active, log, lines[1..]);
      case Skip => CallsFollowInput(active, log, lines[1..]);
      case Send(m) =>
        AfterCallExtends(active, log, m, lines[0].result);
        CallsFollowInput(active, AfterCall(active, log, m, lines[0].result), lines[1..]);
        SendFollowsInput(active, log, lines, m);
    }
  }

  /** The step of `CallsFollowInput` for a sent line: its call comes first,
      then the calls of the rest of the run. */
  lemma SendFollowsInput(active: string, log: seq<Turn>, lines: seq<Line>, m: string)
    requires |lines| > 0 && Classify(lines[0].text) == Send(m) && WellFormedLog(log, active)
    requires WellFormedLog(AfterCall(active, log, m, lines[0].result), active)
    requires var rest := Converse(active, AfterCall(active, log, m, lines[0].result), lines[1..]);
             |rest.calls| == |SentLines(lines[1..])| &&
             forall k :: 0 <= k < |rest.calls| ==>
               rest.calls[k].newMessage == SentLines(lines[1..])[k].text && rest.results[k] == SentLines(lines[1..])[k].result
    ensures var t := Converse(active, log, lines);
            |t.calls| == |SentLines(lines)| &&
            forall k :: 0 <= k < |t.calls| ==>
              t.calls[k].newMessage == SentLines(lines)[k].text && t.results[k] == SentLines(lines)[k].result
  {
    var rest := Converse(active, AfterCall(active, log, m, lines[0].result), lines[1..]);
    var t := AfterSend(ChatArgs(m, log, active), lines[0].result, rest);
    assert Converse(active, log, lines) == t;
    var sent := SentLines(lines);
    assert sent == [lines[0]] + SentLines(lines[1..]);
    forall k | 0 <= k < |t.calls|
      ensures t.calls[k].newMessage == sent[k].text && t.results[k] == sent[k].result
    {
      if k > 0 {
        assert t.calls[k] == rest.calls[k - 1] && t.results[k] == rest.results[k - 1];
      }
    }
  }
}

=== FILE: chattool.dfy ===
/** The `chat` tool: one turn of conversation through the chat client. */
module ChatTool {
  import opened Results
  import opened JsText
  import opened Messages
  import opened OllamaService

  const DefaultSystemPrompt := "You are a helpful AI assistant."
  const EmptyMessageText := "New message must be at least 1 character long."
  const FailurePrefix := "I encountered an error trying to respond: "

  /** `systemPrompt || DefaultSystemPrompt`. */
  function PromptOr(systemPrompt: Option<string>): (p: string)
    ensures p != []
    ensures systemPrompt.Some? && systemPrompt.value != [] ==> p == systemPrompt.value
    ensures systemPrompt.None? || systemPrompt.value == [] ==> p == DefaultSystemPrompt
  {
    if systemPrompt.Some? && systemPrompt.value != [] then systemPrompt.value else DefaultSystemPrompt
  }

  /** The turns sent: a system turn only when there is no history, since a
      history is taken to carry its own; then the new user turn. */
  function ChatTurns(newMessage: string, history: seq<Turn>, systemPrompt: Option<string>): (ts: seq<Turn>)
    ensures |ts| == if |history| == 0 then 2 else |history| + 1
    ensures ts[|ts| - 1] == Turn(User, newMessage)
    ensures |history| == 0 ==> ts[0] == Turn(System, PromptOr(systemPrompt))
    ensures ts[..|ts| - 1] == if |history| == 0 then [Turn(System, PromptOr(systemPrompt))] else history
  {
    var first := if |history| == 0 then [Turn(System, PromptOr(systemPrompt))] else history;
    first + [Turn(User, newMessage)]
  }

  /** The request the tool sent and the answer it gave. */
  datatype ChatCall = ChatCall(request: LlmRequest, response: ToolResponse)

  /** The tool handler, given the model's answer `reply`; `Err` is the
      argument check that precedes the handler. */
  function Chat(cfg: Config, newMessage: string, history: seq<Turn>, systemPrompt: Option<string>, reply: ChatOutcome): (r: Result<ChatCall>)
    ensures r.Err? <==> newMessage == []
    ensures r.Ok? ==>
              r.value.request.ChatRequest? && r.value.request.temperature.None? &&
              r.value.request.messages == WireAll(ChatTurns(newMessage, history, systemPrompt))
    ensures r.Ok? ==> (r.value.response.isError <==> ChatCompletion(cfg, reply).Err?)
    ensures r.Ok? && !r.value.response.isError ==>
              r.value.response == ToolResponse(ChatCompletion(cfg, reply).value, false, None)
    ensures r.Ok? && r.value.response.isError ==>
              r.value.response.errorDetails == Some(ChatCompletion(cfg, reply).message) &&
              StartsWith(r.value.response.text, FailurePrefix)
  {
    if newMessage == [] then Err(EmptyMessageText)
    else
      var request := ChatCompletionRequest(cfg, WireAll(ChatTurns(newMessage, history, systemPrompt)));
      match ChatCompletion(cfg, reply)
      case Ok(text) => Ok(ChatCall(request, ToolResponse(text, false, None)))
      case Err(m) => Ok(ChatCall(request, ToolResponse(FailurePrefix + m, true, Some(m))))
  }

  /** With a history, the system prompt argument has no effect. */
  lemma HistoryOverridesPrompt(newMessage: string, history: seq<Turn>, p: Option<string>, q: Option<string>)
    requires |history| > 0
    ensures ChatTurns(newMessage, history, p) == ChatTurns(newMessage, history, q)
  {
    var a := ChatTurns(newMessage, history, p);
    var b := ChatTurns(newMessage, history, q);
    assert a == a[..|a| - 1] + [a[|a| - 1]];
    assert b == b[..|b| - 1] + [b[|b| - 1]];
  }

  /** An error answer's text is its details behind the prefix. */
  lemma ErrorTextCarriesDetails(cfg: Config, newMessage: string, history: seq<Turn>, systemPrompt: Option<string>, reply: ChatOutcome)
    requires Chat(cfg, newMessage, history, systemPrompt, reply).Ok?
    ensures var t := Chat(cfg, newMessage, history, systemPrompt, reply).value.response;
            t.isError ==> t.text[|FailurePrefix|..] == t.errorDetails.value
  {
  }
}

=== FILE: interaction.dfy ===
/** `handleUserRequest`, the orchestrator behind the `interaction` tool: it
    asks the language model which tool to use, parses the `<tool_code>` call
    in the answer, runs the tool, and for `textToSqlTool` feeds a synthesized
    `queryTool` call back into itself. Each call to the language model is
    answered from a script holding what the client function returns, the
    text or the message of the error it throws; the database is an
    oracle. */
module Interaction {
  import opened Results
  import opened JsText
  import opened Messages
  import opened OllamaService
  import opened SchemaQueries
  import opened ToolCallParser

  /** The system prompt describing the three tools. */
  const DecisionPrompt :=
    "You are a helpful assistant that can interact with a database and engage in general chat.\n" +
    "You have access to the following tools:\n" +
    "\n" +
    "<tool_definitions>\n" +
    "1.  **textToSqlTool**:\n" +
    "    Description: Converts a natural language question and a database schema into a PostgreSQL SQL query.\n" +
    "    Parameters:\n" +
    "        - naturalQuery (string): The user's question in natural language.\n" +
    "        - schemaText (string): The full database schema.\n" +
    "    Response: The raw SQL query string.\n" +
    "    Example call: <tool_code>textToSqlTool(naturalQuery='Show me all users created in the last month', schemaText='CREATE TABLE users (id INT, name TEXT);')</tool_code>\n" +
    "\n" +
    "2.  **queryTool**:\n" +
    "    Description: Executes a given SQL query against the database and returns the results as JSON.\n" +
    "    Parameters:\n" +
    "        - sqlQuery (string): The SQL query to execute.\n" +
    "    Response: JSON array of objects representing the query results.\n" +
    "    Example call: <tool_code>queryTool(sqlQuery='SELECT name, email FROM users WHERE created_at > NOW() - INTERVAL \\'1 month\\'')</tool_code>\n" +
    "\n" +
    "3.  **chatTool**:\n" +
    "    Description: Engages in general conversation or answers questions that do not require database interaction.\n" +
    "    Parameters:\n" +
    "        - newMessage (string): The current user message.\n" +
    "        - history (array<object>): The conversation history (e.g., [{role: \"user\", content: \"hi\"}, {role: \"assistant\", content: \"hello\"}]).\n" +
    "        - systemPrompt (string, optional): An initial system prompt for the chat.\n" +
    "    Response: The assistant's text response.\n" +
    "    Example call: <tool_code>chatTool(newMessage='What is the capital of France?')</tool_code>\n" +
    "</tool_definitions>\n" +
    "\n" +
    "Based on the user's input, decide which tool to call or if a direct chat response is needed.\n" +
    "If you need to call a tool, respond ONLY with the tool call in the format: <tool_code>toolName(param1='value1', param2='value2')</tool_code>.\n" +
    "If you need to chain tools (e.g., convert text to SQL, then run SQL), output the first tool call.\n" +
    "If no tool is suitable, or if the user asks a general question, provide a natural language response.\n" +
    "Do not explain your reasoning unless explicitly asked to do so after a tool call.\n"

  const InternalErrorPrefix := "An internal error occurred: "
  const SqlGenerationErrorPrefix := "Failed to generate SQL: "
  const ExecuteErrorPrefix := "Failed to execute SQL query: "
  const ChatErrorPrefix := "Failed to get chat response: "
  const DefaultChatPrompt := "You are a helpful AI assistant."

  function UnknownToolText(name: string): string {
    "Unknown tool: " + name + ". Please check tool definitions."
  }

  /** The `{ type, content }` value `handleUserRequest` resolves to. */
  datatype Reply = TextReply(content: string) | SqlResult(json: string) | ErrorReply(content: string)

  /** A request to the model as the orchestrator states it. A decision is
      sent as `DecisionRequest`, a SQL question as `SqlRequest`, and a chat
      as a system turn and a user turn without a temperature. */
  datatype Ask =
    | DecisionAsk(userQuery: string, history: seq<Turn>)
    | SqlAsk(naturalQuery: string, schemaText: string)
    | ChatAsk(systemPrompt: string, newMessage: Option<string>)

  /** A run of the orchestrator against a script of answers: its reply, the
      requests it made of the model, the SQL texts it executed, and the
      answers left unused; or `Exhausted` when the script ran out first. */
  datatype Run =
    | Finished(reply: Reply, requests: seq<Ask>, executed: seq<Option<string>>, rest: seq<Result<string>>)
    | Exhausted

  /** The decision messages: the tool prompt, the history, the user's query. */
  function DecisionTurns(userQuery: string, history: seq<Turn>): seq<Turn> {
    [Turn(System, DecisionPrompt)] + history + [Turn(User, userQuery)]
  }

  function DecisionRequest(cfg: Config, userQuery: string, history: seq<Turn>): LlmRequest {
    ChatCompletionRequest(cfg, WireAll(DecisionTurns(userQuery, history)))
  }

  /** The decision request lists the tool prompt, then the history in order,
      then the user's query, each as a turn with text content. */
  lemma DecisionRequestShape(cfg: Config, userQuery: string, history: seq<Turn>)
    ensures var r := DecisionRequest(cfg, userQuery, history);
            r.ChatRequest? && r.model == cfg.model && r.temperature.None? &&
            |r.messages| == |history| + 2 &&
            r.messages[0] == WireTurn(System, Some(DecisionPrompt)) &&
            r.messages[|history| + 1] == WireTurn(User, Some(userQuery)) &&
            forall i :: 0 <= i < |history| ==> r.messages[i + 1] == WireTurn(history[i].role, Some(history[i].content))
  {
    var ts := DecisionTurns(userQuery, history);
    assert |ts| == |history| + 2;
    forall i | 0 <= i < |history|
      ensures ts[i + 1] == history[i]
    {
    }
  }

  /** `params.key || fallback`. */
  function ParamOr(params: map<string, string>, key: string, fallback: string): string {
    if key in params && params[key] != "" then params[key] else fallback
  }

  /** `params.key`, `None` for `undefined`. */
  function Param(params: map<string, string>, key: string): Option<string> {
    if key in params then Some(params[key]) else None
  }

  /** One level of `handleUserRequest`: its reply, or the recursive call it
      makes with the synthesized query and the decision to append to the
      history; `sent` are the model requests of this level and `left` the
      answers it did not use. */
  datatype Step =
    | Done(reply: Reply, sent: seq<Ask>, executed: seq<Option<string>>, left: seq<Result<string>>)
    | Recurse(query: string, decision: string, sent: seq<Ask>, left: seq<Result<string>>)
    | OutOfScript

  /** The `switch (toolName)` of one level, after the decision request `req`;
      `schema` is what the schema fetch yields. */
  function Dispatch(db: Database, schema: Result<string>, userQuery: string, decision: string, name: string,
                    params: map<string, string>, req: Ask, after: seq<Result<string>>): (s: Step)
    ensures s.OutOfScript? ==> after == []
    ensures !s.OutOfScript? ==> (|s.sent| == 1 && s.left == after) || (|s.sent| == 2 && |after| > 0 && s.left == after[1..])
    ensures !s.OutOfScript? ==> s.sent[0] == req
    ensures s.Recurse? ==> name == "textToSqlTool"
    ensures s.Done? ==> s.executed == (if name == "queryTool" then [Param(params, "sqlQuery")] else [])
  {
    if name == "textToSqlTool" then
      match schema
      case Err(m) => Done(ErrorReply(InternalErrorPrefix + m), [req], [], after)
      case Ok(text) =>
        if |after| == 0 then OutOfScript
        else
          var sqlAsk := SqlAsk(ParamOr(params, "naturalQuery", userQuery), ParamOr(params, "schemaText", text));
          match after[0]
          case Err(m) => Done(ErrorReply(SqlGenerationErrorPrefix + m), [req, sqlAsk], [], after[1..])
          case Ok(sql) => Recurse(QueryCallFor(sql), decision, [req, sqlAsk], after[1..])
    else if name == "queryTool" then
      var sql := Param(params, "sqlQuery");
      match ExecuteQuery(db, sql)
      case Ok(json) => Done(SqlResult(json), [req], [sql], after)
      case Err(m) => Done(ErrorReply(ExecuteErrorPrefix + m), [req], [sql], after)
    else if name == "chatTool" then
      if |after| == 0 then OutOfScript
      else
        var chatAsk := ChatAsk(ParamOr(params, "systemPrompt", DefaultChatPrompt), Param(params, "newMessage"));
        match after[0]
        case Ok(text) => Done(TextReply(text), [req, chatAsk], [], after[1..])
        case Err(m) => Done(ErrorReply(ChatErrorPrefix + m), [req, chatAsk], [], after[1..])
    else Done(ErrorReply(UnknownToolText(name)), [req], [], after)
  }

  /** One level: ask for a decision, answer directly or dispatch its call. */
  function Decide(db: Database, userQuery: string, history: seq<Turn>, answers: seq<Result<string>>): (s: Step)
    ensures s.OutOfScript? ==> |answers| <= 1
    ensures !s.OutOfScript? ==> 0 < |s.sent| == |answers| - |s.left| && s.left == answers[|answers| - |s.left|..]
    ensures !s.OutOfScript? ==> s.sent[0] == DecisionAsk(userQuery, history)
    ensures s.Done? ==> |s.executed| <= 1 && forall i :: 0 <= i < |s.executed| ==> s.executed[i].None?
  {
    if |answers| == 0 then OutOfScript
    else
      var req := DecisionAsk(userQuery, history);
      match answers[0]
      case Err(m) => Done(ErrorReply(InternalErrorPrefix + m), [req], [], answers[1..])
      case Ok(decision) =>
        match MatchToolCall(decision)
        case None => Done(TextReply(decision), [req], [], answers[1..])
        case Some(call) =>
          var s := Dispatch(db, FormattedSchema(db, None).text, userQuery, decision, call.name,
                            ParseParams(call.args).value, req, answers[1..]);
          assert !s.OutOfScript? && |s.sent| == 2 ==> answers[1..][1..] == answers[2..];
          s
  }

  /** A finished run left a suffix of the script and made one request per
      answer it used. */
  predicate Consumed(r: Run, answers: seq<Result<string>>) {
    r.Finished? ==> |r.rest| <= |answers| && r.rest == answers[|answers| - |r.rest|..] && |r.requests| == |answers| - |r.rest|
  }

  /** `handleUserRequest(userQuery, chatHistory)`. */
  function Handle(db: Database, userQuery: string, history: seq<Turn>, answers: seq<Result<string>>): (r: Run)
    ensures Consumed(r, answers)
    ensures r.Finished? ==> |r.rest| < |answers| && r.requests[0] == DecisionAsk(userQuery, history)
    decreases |answers|
  {
    match Decide(db, userQuery, history, answers)
    case OutOfScript => Exhausted
    case Done(reply, sent, executed, left) => Finished(reply, sent, executed, left)
    case Recurse(query, decision, sent, left) =>
      var sub := Handle(db, query, history + [Turn(Assistant, decision)], left);
      if sub.Exhausted? then Exhausted
      else Finished(sub.reply, sent + sub.requests, sub.executed, sub.rest)
  }

  /** Running against a longer script changes one dispatch only in its
      unused tail. */
  lemma DispatchExtraAnswers(db: Database, schema: Result<string>, userQuery: string, decision: string, name: string,
                             params: map<string, string>, req: Ask, after: seq<Result<string>>, more: seq<Result<string>>)
    requires !Dispatch(db, schema, userQuery, decision, name, params, req, after).OutOfScript?
    ensures var s := Dispatch(db, schema, userQuery, decision, name, params, req, after);
            Dispatch(db, schema, userQuery, decision, name, params, req, after + more) == s.(left := s.left + more)
  {
    if |after| > 0 {
      assert (after + more)[0] == after[0];
      assert (after + more)[1..] == after[1..] + more;
    }
  }

  /** Running against a longer script changes one level only in its unused
      tail. */
  lemma DecideExtraAnswers(db: Database, userQuery: string, history: seq<Turn>, answers: seq<Result<string>>, more: seq<Result<string>>)
    requires !Decide(db, userQuery, history, answers).OutOfScript?
    ensures var s := Decide(db, userQuery, history, answers);
            Decide(db, userQuery, history, answers + more) == s.(left := s.left + more)
  {
    var all := answers + more;
    assert all[0] == answers[0];
    assert all[1..] == answers[1..] + more;
    if answers[0].Ok? && MatchToolCall(answers[0].value).Some? {
      var call := MatchToolCall(answers[0].value).value;
      DispatchExtraAnswers(db, FormattedSchema(db, None).text, userQuery, answers[0].value, call.name,
                           ParseParams(call.args).value, DecisionAsk(userQuery, history), answers[1..], more);
    }
  }

  /** Answers beyond those a run uses are left untouched: the run is
      decided by the prefix of the script it consumes. */
  lemma {:induction false} ExtraAnswersIgnored(db: Database, userQuery: string, history: seq<Turn>, answers: seq<Result<string>>, more: seq<Result<string>>)
    requires Handle(db, userQuery, history, answers).Finished?
    ensures var r := Handle(db, userQuery, history, answers);
            Handle(db, userQuery, history, answers + more) == r.(rest := r.rest + more)
    decreases |answers|
  {
    var s := Decide(db, userQuery, history, answers);
    DecideExtraAnswers(db, userQuery, history, answers, more);
    if s.Recurse? {
      ExtraAnswersIgnored(db, s.query, history + [Turn(Assistant, s.decision)], s.left, more);
    }
  }

  /** Arguments are never parsed into parameters, so the query tool is
      always handed `undefined`: a run executes at most one query, and never
      a SQL text. */
  lemma {:induction false} ExecutesOnlyUndefined(db: Database, userQuery: string, history: seq<Turn>, answers: seq<Result<string>>)
    ensures var r := Handle(db, userQuery, history, answers);
            r.Finished? ==> |r.executed| <= 1 && forall i :: 0 <= i < |r.executed| ==> r.executed[i].None?
    decreases |answers|
  {
    var s := Decide(db, userQuery, history, answers);
    if s.Recurse? {
      ExecutesOnlyUndefined(db, s.query, history + [Turn(Assistant, s.decision)], s.left);
    }
  }

  /** A level that ends without recursing is the run. */
  lemma HandleDone(db: Database, userQuery: string, history: seq<Turn>, answers: seq<Result<string>>)
    requires Decide(db, userQuery, history, answers).Done?
    ensures var s := Decide(db, userQuery, history, answers);
            Handle(db, userQuery, history, answers) == Finished(s.reply, s.sent, s.executed, s.left)
  {
  }

  /** The first answers of a script and what follows them. */
  lemma Heads<T>(o: T, o': T, more: seq<T>)
    ensures ([o, o'] + more)[0] == o && ([o, o'] + more)[1..] == [o'] + more
    ensures ([o'] + more)[0] == o' && ([o'] + more)[1..] == more
  {
  }

  /** A failed or empty decision call is reported as an internal error. */
  lemma DecisionFailure(db: Database, userQuery: string, history: seq<Turn>, m: string, more: seq<Result<string>>)
    ensures Handle(db, userQuery, history, [Err(m)] + more) ==
            Finished(ErrorReply(InternalErrorPrefix + m), [DecisionAsk(userQuery, history)], [], more)
  {
    assert ([Err(m)] + more)[1..] == more;
  }

  /** A decision without a tool call is the reply, verbatim. */
  lemma DirectAnswer(db: Database, userQuery: string, history: seq<Turn>, decision: string, more: seq<Result<string>>)
    requires MatchToolCall(decision).None?
    ensures Handle(db, userQuery, history, [Ok(decision)] + more) ==
            Finished(TextReply(decision), [DecisionAsk(userQuery, history)], [], more)
  {
    assert ([Ok(decision)] + more)[1..] == more;
  }

  /** The decision is a call of the named tool. */
  predicate Calls(answer: Result<string>, name: string) {
    answer.Ok? && MatchToolCall(answer.value).Some? && MatchToolCall(answer.value).value.name == name
  }

  /** The dispatch of a decision's call. */
  lemma DecideCall(db: Database, userQuery: string, history: seq<Turn>, a: Result<string>, more: seq<Result<string>>)
    requires a.Ok? && MatchToolCall(a.value).Some?
    ensures var call := MatchToolCall(a.value).value;
            Decide(db, userQuery, history, [a] + more) ==
            Dispatch(db, FormattedSchema(db, None).text, userQuery, a.value, call.name, map[], DecisionAsk(userQuery, history), more)
  {
    assert ([a] + more)[0] == a && ([a] + more)[1..] == more;
  }

  /** A call to a tool that is not one of the three is an error naming it. */
  lemma UnknownToolReply(db: Database, userQuery: string, history: seq<Turn>, a: Result<string>, more: seq<Result<string>>, name: string)
    requires Calls(a, name)
    requires name != "textToSqlTool" && name != "queryTool" && name != "chatTool"
    ensures Handle(db, userQuery, history, [a] + more) ==
            Finished(ErrorReply(UnknownToolText(name)), [DecisionAsk(userQuery, history)], [], more)
  {
    DecideCall(db, userQuery, history, a, more);
  }

  /** The query tool runs `undefined` and reports the rows' serialisation,
      or, when that fails, the `TypeError` the failure's log line raises,
      behind its error prefix. */
  lemma QueryToolOutcome(db: Database, userQuery: string, history: seq<Turn>, a: Result<string>, more: seq<Result<string>>)
    requires Calls(a, "queryTool")
    ensures var r := Handle(db, userQuery, history, [a] + more);
            r.Finished? && r.executed == [None] && r.rest == more &&
            r.requests == [DecisionAsk(userQuery, history)] &&
            match db.execute(None)
            case Succeeded(json) => r.reply == SqlResult(json)
            case QueryFailed(_) => r.reply == ErrorReply(ExecuteErrorPrefix + UndefinedSqlLogError)
  {
    DecideCall(db, userQuery, history, a, more);
  }

  /** The chat tool sends the default system prompt and an `undefined` user
      message, and passes the answer or its error on. */
  lemma ChatToolOutcome(db: Database, userQuery: string, history: seq<Turn>, a: Result<string>, a': Result<string>, more: seq<Result<string>>)
    requires Calls(a, "chatTool")
    ensures var r := Handle(db, userQuery, history, [a, a'] + more);
            r.Finished? && r.executed == [] && r.rest == more &&
            r.requests == [DecisionAsk(userQuery, history), ChatAsk(DefaultChatPrompt, None)] &&
            match a'
            case Ok(text) => r.reply == TextReply(text)
            case Err(m) => r.reply == ErrorReply(ChatErrorPrefix + m)
  {
    Heads(a, a', more);
    DecideCall(db, userQuery, history, a, [a'] + more);
  }

  /** A schema failure is an internal error; a generator failure is reported
      behind its own prefix. */
  lemma TextToSqlFailures(db: Database, userQuery: string, history: seq<Turn>, a: Result<string>, a': Result<string>, more: seq<Result<string>>)
    requires Calls(a, "textToSqlTool")
    ensures var schema := FormattedSchema(db, None).text;
            schema.Err? ==>
              Handle(db, userQuery, history, [a, a'] + more) ==
              Finished(ErrorReply(InternalErrorPrefix + schema.message), [DecisionAsk(userQuery, history)], [], [a'] + more)
    ensures var schema := FormattedSchema(db, None).text;
            schema.Ok? && a'.Err? ==>
              Handle(db, userQuery, history, [a, a'] + more) ==
              Finished(ErrorReply(SqlGenerationErrorPrefix + a'.message),
                       [DecisionAsk(userQuery, history), SqlAsk(userQuery, schema.value)], [], more)
  {
    Heads(a, a', more);
    DecideCall(db, userQuery, history, a, [a'] + more);
  }

  /** The level that handles a `textToSqlTool` decision whose generator
      produced `sql`. */
  lemma DecideTextToSql(db: Database, userQuery: string, history: seq<Turn>, a: Result<string>, more: seq<Result<string>>, sql: string)
    requires Calls(a, "textToSqlTool")
    requires FormattedSchema(db, None).text.Ok?
    ensures Decide(db, userQuery, history, [a, Ok(sql)] + more) ==
            Recurse(QueryCallFor(sql), a.value,
                    [DecisionAsk(userQuery, history), SqlAsk(userQuery, FormattedSchema(db, None).text.value)], more)
  {
    Heads(a, Ok(sql), more);
    DecideCall(db, userQuery, history, a, [Ok(sql)] + more);
  }

  /** Generated SQL, whatever it says, is turned into a `queryTool` call and
      handed back to the orchestrator with the decision appended to the
      history; its result is returned unchanged. The generator is asked the
      user's whole query against the formatted schema, empty or not. */
  lemma TextToSqlRecursion(db: Database, userQuery: string, history: seq<Turn>, a: Result<string>, more: seq<Result<string>>, sql: string)
    requires Calls(a, "textToSqlTool")
    requires FormattedSchema(db, None).text.Ok?
    ensures var sub := Handle(db, QueryCallFor(sql), history + [Turn(Assistant, a.value)], more);
            var r := Handle(db, userQuery, history, [a, Ok(sql)] + more);
            (r.Finished? <==> sub.Finished?) &&
            (r.Finished? ==>
              r.reply == sub.reply && r.executed == sub.executed && r.rest == sub.rest &&
              r.requests == [DecisionAsk(userQuery, history),
                             SqlAsk(userQuery, FormattedSchema(db, None).text.value)] + sub.requests)
  {
    DecideTextToSql(db, userQuery, history, a, more, sql);
  }

  /** Even when the model answers the synthesized call by repeating it, the
      generated SQL is not what runs: the query tool receives `undefined`. */
  lemma EchoedCallRunsUndefined(db: Database, userQuery: string, history: seq<Turn>, a: Result<string>, more: seq<Result<string>>, sql: string)
    requires Calls(a, "textToSqlTool")
    requires FormattedSchema(db, None).text.Ok?
    requires NoLineTerminator(sql)
    ensures var r := Handle(db, userQuery, history, [a, Ok(sql), Ok(QueryCallFor(sql))] + more);
            r.Finished? && r.executed == [None] && r.rest == more && |r.requests| == 3
  {
    var echo := Ok(QueryCallFor(sql));
    QueryCallForMatches(sql);
    QueryToolOutcome(db, QueryCallFor(sql), history + [Turn(Assistant, a.value)], echo, more);
    assert [a, Ok(sql), echo] + more == [a, Ok(sql)] + ([echo] + more);
    TextToSqlRecursion(db, userQuery, history, a, [echo] + more, sql);
  }

  /** The chat client hands an echoed call back unchanged. */
  lemma EchoThroughClient(cfg: Config, sql: string)
    ensures ChatCompletion(cfg, ChatReply(Some(QueryCallFor(sql)))) == Ok(QueryCallFor(sql))
  {
    var call := QueryCallFor(sql);
    QueryCallShape(sql);
    assert call[0] == '<';
    assert call[|call| - 1] == '>';
    RepliesAreTrimmed(cfg, "", call, "");
    assert "" + call + "" == call;
  }

  /** The text shown for a query result. */
  const SqlResultTitle := "Query Result:\n"

  /** The `interaction` tool's response for a reply. */
  function Wrap(reply: Reply): (t: ToolResponse)
    ensures t.isError <==> reply.ErrorReply?
    ensures reply.ErrorReply? ==> t.text == reply.content && t.errorDetails == Some(reply.content)
    ensures !reply.ErrorReply? ==> t.errorDetails.None?
    ensures reply.TextReply? ==> t.text == reply.content
    ensures reply.SqlResult? ==> StartsWith(t.text, SqlResultTitle)
  {
    match reply
    case ErrorReply(c) => ToolResponse(c, true, Some(c))
    case SqlResult(json) => ToolResponse(SqlResultTitle + JsonQuote(json), false, None)
    case TextReply(c) => ToolResponse(c, false, None)
  }

  /** The serialisation in a query result's text is quoted once more as a
      JSON string, and unquoting it recovers the serialisation. */
  lemma WrappedResultRecoverable(json: string)
    ensures var t := Wrap(SqlResult(json)).text;
            JsonUnquote(t[|SqlResultTitle|..]) == Some(json)
  {
    var t := Wrap(SqlResult(json)).text;
    assert t[|SqlResultTitle|..] == JsonQuote(json);
    JsonQuoteRoundTrip(json);
  }

  const EmptyQueryMessage := "User query cannot be empty."

  /** The `interaction` tool: the argument check, then the orchestrator's
      reply wrapped as a tool response; `None` when the script ran out. */
  function InteractionTool(db: Database, userQuery: string, history: seq<Turn>, answers: seq<Result<string>>): (r: Result<Option<ToolResponse>>)
    ensures r.Err? <==> userQuery == []
    ensures r.Err? ==> r.message == EmptyQueryMessage
    ensures r.Ok? ==> (r.value.Some? <==> Handle(db, userQuery, history, answers).Finished?)
    ensures r.Ok? && r.value.Some? ==>
              var reply := Handle(db, userQuery, history, answers).reply;
              (r.value.value.isError <==> reply.ErrorReply?) &&
              (reply.TextReply? ==> r.value.value.text == reply.content)
    ensures r.Ok? && r.value.Some? ==> r.value.value == Wrap(Handle(db, userQuery, history, answers).reply)
  {
    if userQuery == [] then Err(EmptyQueryMessage)
    else
      match Handle(db, userQuery, history, answers)
      case Exhausted => Ok(None)
      case Finished(reply, _, _, _) => Ok(Some(Wrap(reply)))
  }
}

=== FILE: jstext.dfy ===
/** The JavaScript string operations the server relies on, with their
    ECMAScript meaning: `\s` and `trim`, `toLowerCase` on the ASCII range,
    `startsWith`/`endsWith`/`includes`, `substring(0, n)`, `join`,
    integer-to-text conversion and `JSON.stringify` applied to a string. */
module JsText {
  import opened Results

  /** ECMAScript WhiteSpace and LineTerminator code points: exactly the set the
      regular-expression class `\s` matches and that `String.prototype.trim`
      removes. */
  predicate IsSpace(c: char) {
    || c == '\t' || c == '\n' || c == '\U{B}' || c == '\U{C}' || c == '\r'
    || c == ' ' || c == '\U{A0}' || c == '\U{1680}'
    || ('\U{2000}' <= c <= '\U{200A}')
    || c == '\U{2028}' || c == '\U{2029}' || c == '\U{202F}' || c == '\U{205F}'
    || c == '\U{3000}' || c == '\U{FEFF}'
  }

  /** The code points the regular-expression `.` does not match (without the `s` flag). */
  predicate IsLineTerminator(c: char) {
    c == '\n' || c == '\r' || c == '\U{2028}' || c == '\U{2029}'
  }

  /** The regular-expression class `\w`: ASCII letters, digits and `_`. */
  predicate IsWordChar(c: char) {
    ('a' <= c <= 'z') || ('A' <= c <= 'Z') || ('0' <= c <= '9') || c == '_'
  }

  predicate AllSpace(s: string) {
    forall i :: 0 <= i < |s| ==> IsSpace(s[i])
  }

  predicate StartsWith(s: string, prefix: string) {
    |prefix| <= |s| && s[..|prefix|] == prefix
  }

  predicate EndsWith(s: string, suffix: string) {
    |suffix| <= |s| && s[|s| - |suffix|..] == suffix
  }

  /** `s.includes(t)`. */
  predicate Contains(s: string, t: string)
    decreases |s|
  {
    |t| <= |s| && (s[..|t|] == t || Contains(s[1..], t))
  }

  /** `s.substring(0, n)`: the first `n` characters, or all of them. */
  function Take(s: string, n: nat): (r: string)
    ensures |r| <= n && |r| <= |s|
    ensures StartsWith(s, r)
    ensures |s| <= n ==> r == s
  {
    if |s| <= n then s else s[..n]
  }

  /** `trimStart`: drops the leading whitespace. */
  function TrimStart(s: string): (r: string)
    ensures |r| <= |s| && r == s[|s| - |r|..]
    ensures AllSpace(s[..|s| - |r|])
    ensures r == [] || !IsSpace(r[0])
  {
    if |s| > 0 && IsSpace(s[0]) then
      var r := TrimStart(s[1..]);
      assert s[..|s| - |r|] == [s[0]] + s[1..][..|s| - 1 - |r|];
      r
    else s
  }

  /** `trimEnd`: drops the trailing whitespace. */
  function TrimEnd(s: string): (r: string)
    ensures |r| <= |s| && r == s[..|r|]
    ensures AllSpace(s[|r|..])
    ensures r == [] || !IsSpace(r[|r| - 1])
  {
    if |s| > 0 && IsSpace(s[|s| - 1]) then
      var r := TrimEnd(s[..|s| - 1]);
      assert s[|r|..] == s[..|s| - 1][|r|..] + [s[|s| - 1]];
      r
    else s
  }

  /** `trim`: the text between the leading and the trailing whitespace. */
  function Trim(s: string): (r: string)
    ensures |r| <= |s|
    ensures r == [] || (!IsSpace(r[0]) && !IsSpace(r[|r| - 1]))
  {
    TrimEnd(TrimStart(s))
  }

  /** What `trim` keeps is a piece of the text with only whitespace around it. */
  lemma TrimKeepsMiddle(s: string)
    ensures exists i :: 0 <= i <= |s| - |Trim(s)| && s[i..i + |Trim(s)|] == Trim(s) && AllSpace(s[..i]) && AllSpace(s[i + |Trim(s)|..])
  {
    var t := TrimStart(s);
    SpacedMiddle(s, t, TrimEnd(t));
  }

  /** A prefix `r` of a suffix `t` of `s`, with only whitespace before `t`
      and after `r`, sits in `s` between two runs of whitespace. */
  lemma SpacedMiddle(s: string, t: string, r: string)
    requires |t| <= |s| && t == s[|s| - |t|..] && AllSpace(s[..|s| - |t|])
    requires |r| <= |t| && r == t[..|r|] && AllSpace(t[|r|..])
    ensures exists i :: 0 <= i <= |s| - |r| && s[i..i + |r|] == r && AllSpace(s[..i]) && AllSpace(s[i + |r|..])
  {
    var i := |s| - |t|;
    assert s[i..i + |r|] == t[..|r|];
    assert s[i + |r|..] == t[|r|..];
  }

  /** A text with no whitespace at either end is its own trim. */
  lemma TrimOfTrimmed(s: string)
    requires s == [] || (!IsSpace(s[0]) && !IsSpace(s[|s| - 1]))
    ensures Trim(s) == s
  {
  }

  lemma {:induction false} TrimStartSkips(w: string, x: string)
    requires AllSpace(w)
    requires x == [] || !IsSpace(x[0])
    ensures TrimStart(w + x) == x
  {
    if |w| > 0 {
      assert (w + x)[1..] == w[1..] + x;
      TrimStartSkips(w[1..], x);
    }
  }

  lemma {:induction false} TrimEndSkips(x: string, w: string)
    requires AllSpace(w)
    requires x == [] || !IsSpace(x[|x| - 1])
    ensures TrimEnd(x + w) == x
  {
    if |w| > 0 {
      assert (x + w)[..|x + w| - 1] == x + w[..|w| - 1];
      TrimEndSkips(x, w[..|w| - 1]);
    }
  }

  /** Trimming only sees through the whitespace at the ends. */
  lemma TrimAroundSpaces(w: string, s: string, w': string)
    requires AllSpace(w) && AllSpace(w')
    requires s == [] || (!IsSpace(s[0]) && !IsSpace(s[|s| - 1]))
    ensures Trim(w + s + w') == s
  {
    assert w + s + w' == w + (s + w');
    if s == [] {
      assert s + w' == w';
      TrimStartSkips(w + w', []);
      assert w + w' + [] == w + s + w';
    } else {
      TrimStartSkips(w, s + w');
    }
    TrimEndSkips(s, w');
  }

  lemma ConcatEnds(a: string, b: string, c: string)
    ensures StartsWith(a + b + c, a) && EndsWith(a + b + c, c)
  {
    assert (a + b + c)[..|a|] == a;
    assert (a + b + c)[|a + b + c| - |c|..] == c;
  }

  lemma EndsWithConcat(a: string, b: string, suffix: string)
    requires EndsWith(b, suffix) || (b == [] && EndsWith(a, suffix))
    ensures EndsWith(a + b, suffix)
  {
    if b == [] {
      assert a + b == a;
    } else {
      assert (a + b)[|a + b| - |suffix|..] == b[|b| - |suffix|..];
    }
  }

  /** Text placed between `a` and `c` splits `a + c` at `|a|`. */
  lemma SpliceAt(a: string, x: string, c: string)
    ensures (a + c)[..|a|] == a && (a + c)[|a|..] == c
    ensures a + x + c == (a + c)[..|a|] + x + (a + c)[|a|..]
  {
    assert (a + c)[..|a|] == a;
    assert (a + c)[|a|..] == c;
  }

  /** ASCII lower-casing of one character. */
  function LowerChar(c: char): char {
    if 'A' <= c <= 'Z' then (c as int + 32) as char else c
  }

  /** `toLowerCase`, on the ASCII range. For the ASCII constants the server
      compares against (`/quit`, `/exit`, `/history`, `error:`) this agrees
      with the full Unicode mapping: no text holding a non-ASCII character
      lower-cases to one of them or to a text starting with `error:`. */
  function ToLower(s: string): (r: string)
    ensures |r| == |s|
    ensures forall i :: 0 <= i < |s| ==> r[i] == LowerChar(s[i])
  {
    seq(|s|, i requires 0 <= i < |s| => LowerChar(s[i]))
  }

  /** `parts.join(sep)`. */
  function Join(parts: seq<string>, sep: string): (r: string)
    ensures |parts| == 0 ==> r == []
    ensures |parts| == 1 ==> r == parts[0]
  {
    if |parts| == 0 then []
    else if |parts| == 1 then parts[0]
    else parts[0] + sep + Join(parts[1..], sep)
  }

  lemma JoinAppend(parts: seq<string>, last: string, sep: string)
    requires |parts| > 0
    ensures Join(parts + [last], sep) == Join(parts, sep) + sep + last
  {
    if |parts| == 1 {
    } else {
      assert (parts + [last])[1..] == parts[1..] + [last];
      JoinAppend(parts[1..], last, sep);
    }
  }

  /** With no separator, joining is plain concatenation. */
  lemma JoinEmptySep(parts: seq<string>)
    requires |parts| > 0
    ensures Join(parts, "") == parts[0] + Join(parts[1..], "")
  {
    if |parts| == 1 {
      assert parts[0] + [] == parts[0];
    }
  }

  function DigitChar(d: nat): char
    requires d < 10
  {
    "0123456789"[d]
  }

  /** Decimal text of a natural number, as `String(n)` writes it. */
  function NatToString(n: nat): (r: string)
    ensures |r| > 0
    ensures forall i :: 0 <= i < |r| ==> '0' <= r[i] <= '9'
    ensures r[0] == '0' ==> n == 0
  {
    if n < 10 then [DigitChar(n)] else NatToString(n / 10) + [DigitChar(n % 10)]
  }

  /** Decimal text of an integer (`String(n)` / a template literal). */
  function IntToString(n: int): (r: string)
    ensures |r| > 0
    ensures n < 0 <==> r[0] == '-'
  {
    if n < 0 then "-" + NatToString(-n) else NatToString(n)
  }

  /** Reads back the digits `NatToString` writes. */
  function ParseNat(s: string): nat
    requires forall i :: 0 <= i < |s| ==> '0' <= s[i] <= '9'
  {
    if |s| == 0 then 0 else 10 * ParseNat(s[..|s| - 1]) + (s[|s| - 1] as int - '0' as int)
  }

  /** The decimal rendering of status codes and lengths loses nothing. */
  lemma {:induction false} NatToStringRoundTrip(n: nat)
    ensures ParseNat(NatToString(n)) == n
  {
    if n >= 10 {
      var r := NatToString(n);
      var p := NatToString(n / 10);
      assert r[..|r| - 1] == p;
      NatToStringRoundTrip(n / 10);
    }
  }

  // ---------------------------------------------------------------------
  // JSON.stringify applied to a string value
  // ---------------------------------------------------------------------

  function HexDigit(d: nat): char
    requires d < 16
  {
    "0123456789abcdef"[d]
  }

  /** The escape `JSON.stringify` writes for one character (the QuoteJSONString
      operation of ECMA-262): the seven short escapes, `\u00xx` with
      lower-case hex for the other control characters, the character itself
      otherwise. */
  function JsonEscapeChar(c: char): (r: string)
    ensures |r| > 0
  {
    if c == '"' then "\\\""
    else if c == '\\' then "\\\\"
    else if c == '\U{8}' then "\\b"
    else if c == '\t' then "\\t"
    else if c == '\n' then "\\n"
    else if c == '\U{C}' then "\\f"
    else if c == '\r' then "\\r"
    else if (c as int) < 0x20 then "\\u00" + [HexDigit(c as int / 16), HexDigit(c as int % 16)]
    else [c]
  }

  function JsonEscape(s: string): string {
    if |s| == 0 then [] else JsonEscapeChar(s[0]) + JsonEscape(s[1..])
  }

  /** `JSON.stringify(s)` for a string `s`: a double-quoted, escaped literal. */
  function JsonQuote(s: string): (r: string)
    ensures |r| >= 2 && r[0] == '"' && r[|r| - 1] == '"'
  {
    "\"" + JsonEscape(s) + "\""
  }

  function HexValue(c: char): Option<nat> {
    if '0' <= c <= '9' then Some(c as int - '0' as int)
    else if 'a' <= c <= 'f' then Some(c as int - 'a' as int + 10)
    else if 'A' <= c <= 'F' then Some(c as int - 'A' as int + 10)
    else None
  }

  /** Reads one `\uXXXX` code unit; surrogate halves have no `char` here. */
  function UnicodeEscapeValue(h: string): Option<char>
    requires |h| == 4
  {
    match (HexValue(h[0]), HexValue(h[1]), HexValue(h[2]), HexValue(h[3]))
    case (Some(a), Some(b), Some(c), Some(d)) =>
      var v := 4096 * a + 256 * b + 16 * c + d;
      if v < 0xD800 || (0xE000 <= v < 0x11_0000) then Some(v as char) else None
    case _ => None
  }

  /** The JSON string-body reader: the inverse of `JsonEscape`. */
  function JsonUnescape(t: string): Option<string>
    decreases |t|
  {
    if |t| == 0 then Some([])
    else if t[0] == '"' then None
    else if t[0] != '\\' then
      match JsonUnescape(t[1..])
      case Some(rest) => Some([t[0]] + rest)
      case None => None
    else if |t| < 2 then None
    else
      var e := t[1];
      var decoded: Option<(char, nat)> :=
        if e == '"' then Some(('"', 2))
        else if e == '\\' then Some(('\\', 2))
        else if e == '/' then Some(('/', 2))
        else if e == 'b' then Some(('\U{8}', 2))
        else if e == 't' then Some(('\t', 2))
        else if e == 'n' then Some(('\n', 2))
        else if e == 'f' then Some(('\U{C}', 2))
        else if e == 'r' then Some(('\r', 2))
        else if e == 'u' && |t| >= 6 then
          match UnicodeEscapeValue(t[2..6])
          case Some(c) => Some((c, 6))
          case None => None
        else None;
      match decoded
      case None => None
      case Some((c, n)) =>
        match JsonUnescape(t[n..])
        case Some(rest) => Some([c] + rest)
        case None => None
  }

  /** `JSON.parse` restricted to string literals. */
  function JsonUnquote(t: string): Option<string> {
    if |t| >= 2 && t[0] == '"' && t[|t| - 1] == '"' then JsonUnescape(t[1..|t| - 1]) else None
  }

  lemma UnescapeOneChar(c: char, rest: string)
    ensures JsonUnescape(JsonEscapeChar(c) + rest) ==
            (match JsonUnescape(rest) case Some(r) => Some([c] + r) case None => None)
  {
    var t := JsonEscapeChar(c) + rest;
    if (c as int) < 0x20 && c != '\U{8}' && c != '\t' && c != '\n' && c != '\U{C}' && c != '\r' {
      var hi, lo := c as int / 16, c as int % 16;
      assert t[2..6] == ['0', '0', HexDigit(hi), HexDigit(lo)];
      assert HexValue(HexDigit(hi)) == Some(hi);
      assert HexValue(HexDigit(lo)) == Some(lo);
      assert t[6..] == rest;
    } else if |JsonEscapeChar(c)| == 2 {
      assert t[2..] == rest;
    } else {
      assert t[1..] == rest;
    }
  }

  /** Every string survives `JSON.stringify` followed by `JSON.parse`. */
  lemma {:induction false} JsonEscapeRoundTrip(s: string)
    ensures JsonUnescape(JsonEscape(s)) == Some(s)
  {
    if |s| > 0 {
      JsonEscapeRoundTrip(s[1..]);
      UnescapeOneChar(s[0], JsonEscape(s[1..]));
      assert [s[0]] + s[1..] == s;
    }
  }

  lemma JsonQuoteRoundTrip(s: string)
    ensures JsonUnquote(JsonQuote(s)) == Some(s)
  {
    var q := JsonQuote(s);
    assert q[1..|q| - 1] == JsonEscape(s);
    JsonEscapeRoundTrip(s);
  }
}

=== FILE: messages.dfy ===
/** The records passed between the server's components: conversation turns,
    the request bodies sent to the Ollama HTTP API, and the result an MCP
    tool hands back to its caller. */
module Messages {
  import opened Results

  datatype Role = System | User | Assistant {
    /** The wire name of the role, also used when the chat CLI prints the log. */
    function Name(): string {
      match this
      case System => "system"
      case User => "user"
      case Assistant => "assistant"
    }
  }

  /** One `{ role, content }` message of a conversation. */
  datatype Turn = Turn(role: Role, content: string)

  /** A message as it is sent: the content is `None` when the sender put
      `undefined` in it (the field is then dropped from the JSON body). */
  datatype WireTurn = WireTurn(role: Role, content: Option<string>)

  function Wire(t: Turn): WireTurn {
    WireTurn(t.role, Some(t.content))
  }

  function WireAll(ts: seq<Turn>): (ws: seq<WireTurn>)
    ensures |ws| == |ts|
    ensures forall i :: 0 <= i < |ts| ==> ws[i] == Wire(ts[i])
  {
    seq(|ts|, i requires 0 <= i < |ts| => Wire(ts[i]))
  }

  /** A sampling temperature, in tenths (`0.1` is `Tenths(1)`). */
  datatype Temperature = Tenths(n: nat)

  /** The body of one HTTP call to Ollama: `POST /api/chat` with a message
      list (and an optional `options.temperature`), or `POST /api/generate`
      with a prompt. `stream` is always `false` and is not recorded. */
  datatype LlmRequest =
    | ChatRequest(model: string, messages: seq<WireTurn>, temperature: Option<Temperature>)
    | GenerateRequest(model: string, prompt: string, genTemperature: Temperature)

  /** What an MCP tool handler returns: one text content item, the `isError`
      flag, and `errorDetails.message` when the handler sets it. */
  datatype ToolResponse = ToolResponse(text: string, isError: bool, errorDetails: Option<string>)
}

=== FILE: ollama.dfy ===
/** The Ollama client: the requests it builds for the SQL generator, chat
    completion, text generation and summarising, the post-processing of the
    model's reply, and the normalisation of every failure into one message.
    The HTTP call itself is an oracle: its answer is a parameter. */
module OllamaService {
  import opened Results
  import opened JsText
  import opened Messages

  /** `OLLAMA_CONFIG`: the server address and the model name. */
  datatype Config = Config(baseUrl: string, model: string)

  /** The values used when the environment sets neither. */
  const DefaultConfig := Config("http://127.0.0.1:11434", "gemma3:4b")

  function ChatUrl(cfg: Config): string { cfg.baseUrl + "/api/chat" }
  function GenerateUrl(cfg: Config): string { cfg.baseUrl + "/api/generate" }

  // ---------------------------------------------------------------------
  // What the HTTP client can answer
  // ---------------------------------------------------------------------

  /** The body of an HTTP error response: text, an object that may carry an
      `error` field, or nothing. */
  datatype ResponseData = TextData(text: string) | ObjectData(error: Option<string>) | NoData

  /** Why a call threw: an HTTP error response, a request that got no
      response, an axios error raised before sending, any other `Error`, or a
      thrown value that is not an `Error` at all. */
  datatype CallFailure =
    | HttpError(status: int, data: ResponseData, message: string)
    | NoResponse(message: string)
    | SetupError(message: string)
    | PlainError(message: string)
    | NonErrorThrown

  /** The answer of one `POST /api/chat`: the `message.content` of the body
      (absent when the body has no message or no content), or a failure. */
  datatype ChatOutcome = ChatReply(content: Option<string>) | ChatFailed(failure: CallFailure)

  /** The answer of one `POST /api/generate`: the `response` field, or a failure. */
  datatype GenerateOutcome = GenerateReply(response: Option<string>) | GenerateFailed(failure: CallFailure)

  /** The three callers differ only in the wording of their error messages. */
  datatype Api = SqlApi | ChatApi | GenerateApi

  // ---------------------------------------------------------------------
  // Error normalisation
  // ---------------------------------------------------------------------

  /** `data?.error || (typeof data === "string" ? data : message)`: a
      non-empty `error` field, else a text body (even an empty one), else the
      axios message. */
  function ErrorDetail(data: ResponseData, message: string): (d: string)
    ensures data.ObjectData? && data.error.Some? && data.error.value != "" ==> d == data.error.value
    ensures data.TextData? ==> d == data.text
    ensures (data.NoData? || (data.ObjectData? && (data.error.None? || data.error.value == ""))) ==> d == message
  {
    match data
    case ObjectData(e) => if e.Some? && e.value != "" then e.value else message
    case TextData(t) => t
    case NoData => message
  }

  const HttpErrorPrefix := "Ollama API Error ("
  const NoResponsePrefix := "No response from Ollama API. "

  function SetupPrefix(api: Api): string {
    "Error setting up Ollama API " + (if api == GenerateApi then "generate request: " else "request: ")
  }

  function UnknownErrorMessage(api: Api): string {
    match api
    case SqlApi => "Unknown error calling Ollama API"
    case ChatApi => "Unknown error calling Ollama Chat API"
    case GenerateApi => "Unknown error calling Ollama Generate API"
  }

  /** The question the no-response message asks about the server address. */
  function NoResponseWhere(api: Api, cfg: Config): string {
    match api
    case SqlApi => "Is it running at " + ChatUrl(cfg) + "?"
    case GenerateApi => "Is it running at " + GenerateUrl(cfg) + "?"
    case ChatApi => "Is " + cfg.baseUrl + " accessible?"
  }

  /** The message of the `Error` each client rethrows. */
  function ErrorMessage(api: Api, cfg: Config, f: CallFailure): (m: string)
    ensures f.HttpError? ==> StartsWith(m, HttpErrorPrefix + IntToString(f.status) + "): ")
    ensures f.HttpError? ==> m == HttpErrorPrefix + IntToString(f.status) + "): " + ErrorDetail(f.data, f.message)
    ensures f.NoResponse? ==> StartsWith(m, NoResponsePrefix) && EndsWith(m, " Details: " + f.message)
    ensures f.NoResponse? ==> m == NoResponsePrefix + NoResponseWhere(api, cfg) + " Details: " + f.message
    ensures f.SetupError? ==> m == SetupPrefix(api) + f.message
    ensures f.PlainError? ==> m == f.message
    ensures f.NonErrorThrown? ==> m == UnknownErrorMessage(api)
  {
    match f
    case HttpError(status, data, message) =>
      ConcatEnds(HttpErrorPrefix + IntToString(status) + "): ", ErrorDetail(data, message), []);
      assert HttpErrorPrefix + IntToString(status) + "): " + ErrorDetail(data, message) + [] ==
             HttpErrorPrefix + IntToString(status) + "): " + ErrorDetail(data, message);
      HttpErrorPrefix + IntToString(status) + "): " + ErrorDetail(data, message)
    case NoResponse(message) =>
      ConcatEnds(NoResponsePrefix, NoResponseWhere(api, cfg), " Details: " + message);
      assert NoResponsePrefix + NoResponseWhere(api, cfg) + (" Details: " + message) ==
             NoResponsePrefix + NoResponseWhere(api, cfg) + " Details: " + message;
      NoResponsePrefix + NoResponseWhere(api, cfg) + " Details: " + message
    case SetupError(message) => SetupPrefix(api) + message
    case PlainError(message) => message
    case NonErrorThrown => UnknownErrorMessage(api)
  }

  /** The no-response message of the SQL client asks about the chat endpoint. */
  lemma NoResponseAtChatUrl(cfg: Config, message: string)
    ensures ErrorMessage(SqlApi, cfg, NoResponse(message)) ==
            NoResponsePrefix + "Is it running at " + cfg.baseUrl + "/api/chat? Details: " + message
  {
  }

  /** The no-response message of the generate client asks about the generate endpoint. */
  lemma NoResponseAtGenerateUrl(cfg: Config, message: string)
    ensures ErrorMessage(GenerateApi, cfg, NoResponse(message)) ==
            NoResponsePrefix + "Is it running at " + cfg.baseUrl + "/api/generate? Details: " + message
  {
  }

  /** The no-response message of the chat client asks about the bare base
      URL, not the chat endpoint. */
  lemma NoResponseAtBaseUrl(cfg: Config, message: string)
    ensures ErrorMessage(ChatApi, cfg, NoResponse(message)) ==
            NoResponsePrefix + "Is " + cfg.baseUrl + " accessible? Details: " + message
  {
  }

  /** The HTTP error's detail is the body's `error` field when it is a
      non-empty text, else a text body, else the client's own message. */
  lemma HttpErrorDetail(api: Api, cfg: Config, status: nat, data: ResponseData, message: string)
    ensures var m := ErrorMessage(api, cfg, HttpError(status, data, message));
            var head := "Ollama API Error (" + IntToString(status) + "): ";
            (data.ObjectData? && data.error.Some? && data.error.value != "" ==> m == head + data.error.value) &&
            (data.TextData? ==> m == head + data.text) &&
            (data.NoData? || (data.ObjectData? && (data.error.None? || data.error.value == "")) ==> m == head + message)
  {
  }

  /** The first characters of the normalised message tell which kind of
      failure produced it (an `Error` of some other origin keeps its own
      message, so it is left out). */
  lemma PrefixHead(m: string, p: string)
    requires StartsWith(m, p) && |p| > 0
    ensures m[0] == p[0]
  {
    assert m[..|p|][0] == m[0];
  }

  lemma ErrorKindsDistinct(api: Api, cfg: Config, f: CallFailure)
    requires !f.PlainError?
    ensures StartsWith(ErrorMessage(api, cfg, f), HttpErrorPrefix) <==> f.HttpError?
    ensures StartsWith(ErrorMessage(api, cfg, f), NoResponsePrefix) <==> f.NoResponse?
    ensures StartsWith(ErrorMessage(api, cfg, f), SetupPrefix(api)) <==> f.SetupError?
    ensures StartsWith(ErrorMessage(api, cfg, f), "Unknown error calling Ollama") <==> f.NonErrorThrown?
  {
    var m := ErrorMessage(api, cfg, f);
    var heads := [HttpErrorPrefix, NoResponsePrefix, SetupPrefix(api), "Unknown error calling Ollama"];
    assert HttpErrorPrefix[0] == 'O' && NoResponsePrefix[0] == 'N';
    assert SetupPrefix(api)[0] == 'E' && "Unknown error calling Ollama"[0] == 'U';
    forall k | 0 <= k < 4 && StartsWith(m, heads[k])
      ensures m[0] == heads[k][0]
    {
      PrefixHead(m, heads[k]);
    }
    match f {
      case HttpError(_, _, _) =>
        PrefixHead(m, HttpErrorPrefix);
      case NoResponse(_) =>
        PrefixHead(m, NoResponsePrefix);
      case SetupError(_) =>
        PrefixHead(m, SetupPrefix(api));
      case NonErrorThrown =>
        assert StartsWith(m, "Unknown error calling Ollama");
    }
  }

  /** The HTTP status can be read back from the message: it is the digits
      between the prefix and the next `)`. */
  lemma HttpStatusRecoverable(api: Api, cfg: Config, status: nat, data: ResponseData, message: string)
    ensures var m := ErrorMessage(api, cfg, HttpError(status, data, message));
            var digits := IntToString(status);
            m[|HttpErrorPrefix|..|HttpErrorPrefix| + |digits|] == digits &&
            m[|HttpErrorPrefix| + |digits|] == ')' &&
            ParseNat(digits) == status
  {
    var digits := IntToString(status);
    var m := ErrorMessage(api, cfg, HttpError(status, data, message));
    assert m == HttpErrorPrefix + digits + "): " + ErrorDetail(data, message);
    assert m[|HttpErrorPrefix|..|HttpErrorPrefix| + |digits|] == digits;
    NatToStringRoundTrip(status);
  }

  // ---------------------------------------------------------------------
  // Text-to-SQL: the request and the cleaning of the reply
  // ---------------------------------------------------------------------

  const SqlSystemPrompt :=
    "You are an expert PostgreSQL query writer.\n"
    + "Based on the provided database schema, generate a single, runnable SQL query that directly answers the user's question.\n"
    + "Output ONLY the raw SQL query. Do not include any explanations, comments, or markdown formatting like ```sql ... ```.\n"
    + "If the question cannot be answered with the given schema, is ambiguous, or requires modification/unsafe operations not typically derived from a \"get\" or \"show\" type question, output \"Error: Cannot generate a safe SELECT query from the given request and schema.\"\n"
    + "Focus on generating SELECT queries. Output the SQL query in a single line without line breaks or indentation. Do not include <thinking> or any other tags."

  function SqlUserPrompt(schemaText: string, naturalQuery: string): string {
    "Database Schema:\n---\n" + schemaText + "\n---\nUser Question: \"" + naturalQuery + "\"\n\nSQL Query:"
  }

  /** The chat request for a question: the fixed system prompt, then one user
      turn holding the schema and the question, at temperature 0.1. */
  function SqlRequest(cfg: Config, naturalQuery: string, schemaText: string): (r: LlmRequest)
    ensures r.ChatRequest? && r.model == cfg.model && r.temperature == Some(Tenths(1))
    ensures |r.messages| == 2 && r.messages[0] == WireTurn(System, Some(SqlSystemPrompt))
    ensures r.messages[1].role == User && r.messages[1].content.Some?
    ensures StartsWith(r.messages[1].content.value, "Database Schema:\n---\n" + schemaText + "\n---\n")
    ensures EndsWith(r.messages[1].content.value, "User Question: \"" + naturalQuery + "\"\n\nSQL Query:")
    ensures |r.messages[1].content.value| ==
            |"Database Schema:\n---\n" + schemaText + "\n---\n"| + |"User Question: \"" + naturalQuery + "\"\n\nSQL Query:"|
  {
    var u := SqlUserPrompt(schemaText, naturalQuery);
    var head := "Database Schema:\n---\n" + schemaText + "\n---\n";
    var tail := "User Question: \"" + naturalQuery + "\"\n\nSQL Query:";
    assert u == head + tail;
    ChatRequest(cfg.model, [WireTurn(System, Some(SqlSystemPrompt)), WireTurn(User, Some(u))], Some(Tenths(1)))
  }

  const SqlExtractError :=
    "Failed to extract SQL query from Ollama response. Ensure the model is responding correctly and the response structure is as expected."

  /** The regular expression `^```sql` with the `i` flag: three backticks and
      `sql` in any ASCII case. */
  predicate IsFenceStart(s: string) {
    |s| >= 6 && s[..3] == "```" && ToLower(s[3..6]) == "sql"
  }

  /** `s.replace(/^```sql\s*|\s*```$/gi, "")`: the opening fence and the
      whitespace after it go, then, searching from where that match ended, the
      closing fence and the whitespace before it. */
  function StripFences(s: string): string {
    var rest := if IsFenceStart(s) then TrimStart(s[6..]) else s;
    if EndsWith(rest, "```") then TrimEnd(rest[..|rest| - 3]) else rest
  }

  /** `t.replace(/;\s*$/, "")`: the last `;` before the trailing whitespace
      goes together with that whitespace. */
  function StripSemicolon(t: string): (r: string)
    ensures r == t || (exists w :: AllSpace(w) && t == r + ";" + w)
  {
    var k := |TrimEnd(t)|;
    if k > 0 && t[k - 1] == ';' then
      assert t == t[..k - 1] + ";" + t[k..];
      t[..k - 1]
    else t
  }

  /** The post-processing of the reply's `message.content`: trim, reject an
      empty reply, strip fences, trim again, strip one trailing `;`. */
  function CleanSql(content: Option<string>): (r: Result<string>)
    ensures r.Err? <==> content.None? || Trim(content.value) == []
    ensures r.Err? ==> r.message == SqlExtractError
  {
    if content.None? || Trim(content.value) == [] then Err(SqlExtractError)
    else Ok(StripSemicolon(Trim(StripFences(Trim(content.value)))))
  }

  /** `generateSqlFromNaturalLanguage` given the answer to its request. */
  function SqlReply(cfg: Config, outcome: ChatOutcome): (r: Result<string>)
    ensures outcome.ChatFailed? ==> r == Err(ErrorMessage(SqlApi, cfg, outcome.failure))
    ensures outcome.ChatReply? ==> r == CleanSql(outcome.content)
  {
    match outcome
    case ChatReply(content) => CleanSql(content)
    case ChatFailed(f) => Err(ErrorMessage(SqlApi, cfg, f))
  }

  /** Exactly one trailing `;` goes, and whitespace before it stays:
      `a;;` becomes `a;`, `a ;` becomes `a `. */
  lemma StripSemicolonOnce(x: string)
    ensures StripSemicolon(x + ";") == x
  {
    var t := x + ";";
    assert t[|t| - 1] == ';';
    assert TrimEnd(t) == t;
    assert t[..|t| - 1] == x;
  }

  /** A text not ending in `;` (after its trailing whitespace) is kept. */
  lemma StripSemicolonKeeps(t: string)
    requires t == [] || (!IsSpace(t[|t| - 1]) && t[|t| - 1] != ';')
    ensures StripSemicolon(t) == t
  {
  }

  /** The fences and the whitespace inside them go. */
  lemma StripFencesOf(tag: string, w1: string, body: string, w2: string)
    requires AllSpace(w1) && AllSpace(w2)
    requires |tag| == 3 && ToLower(tag) == "sql"
    requires |body| > 0 && !IsSpace(body[0]) && !IsSpace(body[|body| - 1])
    ensures StripFences("```" + tag + w1 + body + w2 + "```") == body
  {
    var s := "```" + tag + w1 + body + w2 + "```";
    assert s[..3] == "```" && s[3..6] == tag;
    assert IsFenceStart(s);
    var after := body + w2 + "```";
    assert s[6..] == w1 + after;
    TrimStartSkips(w1, after);
    assert EndsWith(after, "```");
    assert after[..|after| - 3] == body + w2;
    TrimEndSkips(body, w2);
  }

  /** A fenced reply gives back the query inside the fence. */
  lemma FencedReplyUnwrapped(w0: string, tag: string, w1: string, body: string, w2: string, w3: string)
    requires AllSpace(w0) && AllSpace(w1) && AllSpace(w2) && AllSpace(w3)
    requires |tag| == 3 && ToLower(tag) == "sql"
    requires |body| > 0 && !IsSpace(body[0]) && !IsSpace(body[|body| - 1]) && body[|body| - 1] != ';'
    ensures CleanSql(Some(w0 + "```" + tag + w1 + body + w2 + "```" + w3)) == Ok(body)
  {
    var s := "```" + tag + w1 + body + w2 + "```";
    assert w0 + "```" + tag + w1 + body + w2 + "```" + w3 == w0 + s + w3;
    assert s[0] == '`' && s[|s| - 1] == '`';
    TrimAroundSpaces(w0, s, w3);
    StripFencesOf(tag, w1, body, w2);
    TrimOfTrimmed(body);
    StripSemicolonKeeps(body);
  }

  /** A reply with no fence and no trailing `;` is returned as trimmed. */
  lemma PlainReplyKept(w0: string, body: string, w1: string)
    requires AllSpace(w0) && AllSpace(w1)
    requires |body| > 0 && !IsSpace(body[0]) && !IsSpace(body[|body| - 1])
    requires !IsFenceStart(body) && !EndsWith(body, "```") && body[|body| - 1] != ';'
    ensures CleanSql(Some(w0 + body + w1)) == Ok(body)
  {
    TrimAroundSpaces(w0, body, w1);
    TrimOfTrimmed(body);
    StripSemicolonKeeps(body);
  }

  // ---------------------------------------------------------------------
  // Chat completion and text generation
  // ---------------------------------------------------------------------

  const ChatExtractError :=
    "Failed to extract assistant's message from Ollama response. Ensure the model is responding as expected."

  const GenerateExtractError :=
    "Failed to extract generated content from Ollama response. Ensure the model is responding correctly and the response structure is as expected."

  /** `getOllamaChatCompletion` sends the messages as they are, with no options. */
  function ChatCompletionRequest(cfg: Config, messages: seq<WireTurn>): (r: LlmRequest)
    ensures r.ChatRequest? && r.messages == messages && r.temperature.None? && r.model == cfg.model
  {
    ChatRequest(cfg.model, messages, None)
  }

  /** `getOllamaChatCompletion` given the answer to its request: the trimmed
      reply, which is never empty. */
  function ChatCompletion(cfg: Config, outcome: ChatOutcome): (r: Result<string>)
    ensures r.Ok? ==> outcome.ChatReply? && outcome.content.Some? && r.value == Trim(outcome.content.value) && r.value != []
    ensures outcome.ChatReply? && (outcome.content.None? || Trim(outcome.content.value) == []) ==> r == Err(ChatExtractError)
    ensures outcome.ChatFailed? ==> r == Err(ErrorMessage(ChatApi, cfg, outcome.failure))
  {
    match outcome
    case ChatReply(content) =>
      if content.None? || Trim(content.value) == [] then Err(ChatExtractError) else Ok(Trim(content.value))
    case ChatFailed(f) => Err(ErrorMessage(ChatApi, cfg, f))
  }

  /** `generateTextFromPrompt(prompt, model, temperature)`'s request. */
  function GenerateRequestFor(model: string, prompt: string, temperature: Temperature): (r: LlmRequest)
    ensures r.GenerateRequest? && r.prompt == prompt && r.model == model && r.genTemperature == temperature
  {
    GenerateRequest(model, prompt, temperature)
  }

  /** `generateTextFromPrompt` given the answer to its request. */
  function GenerateText(cfg: Config, outcome: GenerateOutcome): (r: Result<string>)
    ensures r.Ok? ==> outcome.GenerateReply? && outcome.response.Some? && r.value == Trim(outcome.response.value) && r.value != []
    ensures outcome.GenerateReply? && (outcome.response.None? || Trim(outcome.response.value) == []) ==> r == Err(GenerateExtractError)
    ensures outcome.GenerateFailed? ==> r == Err(ErrorMessage(GenerateApi, cfg, outcome.failure))
  {
    match outcome
    case GenerateReply(response) =>
      if response.None? || Trim(response.value) == [] then Err(GenerateExtractError) else Ok(Trim(response.value))
    case GenerateFailed(f) => Err(ErrorMessage(GenerateApi, cfg, f))
  }

  /** A reply with text in it is handed back with its surrounding whitespace
      removed, by both the chat and the generate client. */
  lemma RepliesAreTrimmed(cfg: Config, w: string, text: string, w': string)
    requires AllSpace(w) && AllSpace(w')
    requires |text| > 0 && !IsSpace(text[0]) && !IsSpace(text[|text| - 1])
    ensures ChatCompletion(cfg, ChatReply(Some(w + text + w'))) == Ok(text)
    ensures GenerateText(cfg, GenerateReply(Some(w + text + w'))) == Ok(text)
  {
    TrimAroundSpaces(w, text, w');
  }

  // ---------------------------------------------------------------------
  // summarizeText
  // ---------------------------------------------------------------------

  const BriefInstructions := "Provide a very concise summary, ideally one to two sentences."
  const MediumInstructions := "Provide a concise summary, focusing on the main points in a paragraph or two."
  const DetailedInstructions := "Provide a comprehensive summary, including key details and supporting information, covering a few paragraphs."
  const FallbackInstructions := "Provide a concise summary."

  /** The `summaryLength` argument: one of the three names the type admits,
      or any other text a caller passes at run time. */
  datatype SummaryLength = Brief | Medium | Detailed | OtherLength(name: string)

  /** Reads the argument; an omitted length means `"medium"`. */
  function LengthOf(summaryLength: Option<string>): (l: SummaryLength)
    ensures summaryLength.None? ==> l == Medium
    ensures l.OtherLength? ==> summaryLength == Some(l.name) && l.name !in {"brief", "medium", "detailed"}
  {
    match summaryLength.GetOr("medium")
    case "brief" => Brief
    case "medium" => Medium
    case "detailed" => Detailed
    case other => OtherLength(other)
  }

  /** The instruction sentence of the `switch`. */
  function SummaryInstructions(l: SummaryLength): string {
    match l
    case Brief => BriefInstructions
    case Medium => MediumInstructions
    case Detailed => DetailedInstructions
    case OtherLength(_) => FallbackInstructions
  }

  const SummaryIntro := "You are an expert summarizer. Your task is to accurately and concisely summarize the following text based on the user's requested length.\n\n"

  /** The prompt up to and including the instructions line. */
  function SummaryHead(instructions: string): string {
    SummaryIntro
    + "Instructions: " + instructions + "\n"
  }

  /** The prompt from the text on. */
  function SummaryTail(text: string): string {
    "Text to Summarize:\n---\n" + text + "\n---\n\nSummary:"
  }

  const SummaryRule := "Output ONLY the summarized text. Do not include any preambles, comments, or markdown formatting.\n\n"

  /** The summarising prompt. */
  function SummaryPrompt(instructions: string, text: string): string {
    SummaryHead(instructions) + SummaryRule + SummaryTail(text)
  }

  /** The prompt opens with the instructions line and closes with the text
      between `---` lines. */
  lemma SummaryPromptParts(instructions: string, text: string)
    ensures StartsWith(SummaryPrompt(instructions, text), SummaryHead(instructions))
    ensures EndsWith(SummaryPrompt(instructions, text), SummaryTail(text))
  {
    ConcatEnds(SummaryHead(instructions), SummaryRule, SummaryTail(text));
  }

  /** `summarizeText`'s call: one generate request with the configured model
      at temperature 0.5, whose prompt carries the chosen instructions and
      then the text. */
  function SummarizeRequest(cfg: Config, text: string, summaryLength: Option<string>): (r: LlmRequest)
    ensures r.GenerateRequest? && r.model == cfg.model && r.genTemperature == Tenths(5)
    ensures r.prompt == SummaryPrompt(SummaryInstructions(LengthOf(summaryLength)), text)
  {
    GenerateRequest(cfg.model, SummaryPrompt(SummaryInstructions(LengthOf(summaryLength)), text), Tenths(5))
  }

  /** The three named lengths select three different sentences, none of
      which is the fallback, and the default is the medium one. */
  lemma SummaryLengthsDistinct()
    ensures SummaryInstructions(LengthOf(Some("brief"))) == BriefInstructions
    ensures SummaryInstructions(LengthOf(Some("medium"))) == MediumInstructions == SummaryInstructions(LengthOf(None))
    ensures SummaryInstructions(LengthOf(Some("detailed"))) == DetailedInstructions
    ensures forall other :: other !in {"brief", "medium", "detailed"} ==>
              SummaryInstructions(LengthOf(Some(other))) == FallbackInstructions
    ensures |{BriefInstructions, MediumInstructions, DetailedInstructions, FallbackInstructions}| == 4
  {
    assert |FallbackInstructions| == 26 && |BriefInstructions| == 61;
    assert |MediumInstructions| == 77 && |DetailedInstructions| == 109;
  }

  /** `summarizeText` rethrows whatever `generateTextFromPrompt` throws and
      returns what it returns. */
  function Summarize(cfg: Config, outcome: GenerateOutcome): (r: Result<string>)
    ensures r.Ok? ==> r.value != [] && !IsSpace(r.value[0]) && !IsSpace(r.value[|r.value| - 1])
    ensures r.Ok? ==> r.value == Trim(r.value)
    ensures outcome.GenerateFailed? ==> r == Err(ErrorMessage(GenerateApi, cfg, outcome.failure))
  {
    GenerateText(cfg, outcome)
  }
}

=== FILE: results.dfy ===
/** Option and Result types shared by every module of the model. A `Result`
    stands for a JavaScript call that either returns a value or throws an
    `Error` whose message is the `Err` payload. */
module Results {

  datatype Option<+T> = None | Some(value: T) {

    /** The payload, or `default` when there is none. */
    function GetOr(default: T): T {
      match this
      case Some(v) => v
      case None => default
    }
  }

  datatype Result<+T> = Ok(value: T) | Err(message: string)
}

=== FILE: schema.dfy ===
/** The PostgreSQL side of the server: `executeQuery`, which hands back the
    rows or rethrows the driver's error, and `getFormattedSchemaForLLM`, which
    reads the catalog and writes it as DDL-like text for the language model.
    The database is an oracle: a fixed answer for every query. */
module SchemaQueries {
  import opened Results
  import opened JsText

  /** The rows a catalog query returns, in the query's `ORDER BY` order, or
      the message of the error it throws. */
  datatype Answer<T> = Rows(rows: seq<T>) | Failed(message: string)

  /** One row of `information_schema.columns`. `columnDefault` and
      `maxLength` are `None` for SQL `NULL`. */
  datatype ColumnRow = ColumnRow(
    name: string,
    dataType: string,
    isNullable: string,
    columnDefault: Option<string>,
    maxLength: Option<int>)

  /** The outcome of running arbitrary SQL: the rows, written as
      `JSON.stringify(rows, null, 2)` writes them, or the error's message. */
  datatype QueryOutcome = Succeeded(json: string) | QueryFailed(message: string)

  /** The catalog queries `getFormattedSchemaForLLM` and the schema resource
      send, with their parameters. */
  datatype CatalogQuery =
    | TablesOf(schema: string)
    | ColumnsOf(table: string, schema: string)
    | KeysOf(table: string, schema: string)

  /** The database's answers: base tables of a schema (by name), columns of
      a table (by ordinal position), primary-key columns of a table (by key
      position), and the outcome of a query text (`None` when the caller
      passes `undefined`). The database does not change while a request runs. */
  datatype Database = Database(
    tables: string -> Answer<string>,
    columns: (string, string) -> Answer<ColumnRow>,
    primaryKey: (string, string) -> Answer<string>,
    execute: Option<string> -> QueryOutcome)

  /** The error a catalog query throws, if it throws. */
  function Failure(db: Database, q: CatalogQuery): Option<string> {
    match q
    case TablesOf(s) => if db.tables(s).Failed? then Some(db.tables(s).message) else None
    case ColumnsOf(t, s) => if db.columns(t, s).Failed? then Some(db.columns(t, s).message) else None
    case KeysOf(t, s) => if db.primaryKey(t, s).Failed? then Some(db.primaryKey(t, s).message) else None
  }

  /** The message of the `TypeError` raised when the error handler of
      `executeQuery` builds its log line from an `undefined` SQL text. */
  const UndefinedSqlLogError := "Cannot read properties of undefined (reading 'substring')"

  /** `executeQuery(sql)`: the rows, or the driver's error rethrown
      unchanged. When `sql` is `undefined`, the log line in the handler
      calls `substring` on it and throws a `TypeError` of its own, which
      replaces the driver's error. */
  function ExecuteQuery(db: Database, sql: Option<string>): (r: Result<string>)
    ensures r.Ok? <==> db.execute(sql).Succeeded?
    ensures r.Ok? ==> r.value == db.execute(sql).json
    ensures r.Err? && sql.Some? ==> r.message == db.execute(sql).message
    ensures r.Err? && sql.None? ==> r.message == UndefinedSqlLogError
  {
    match db.execute(sql)
    case Succeeded(json) => Ok(json)
    case QueryFailed(m) => if sql.None? then Err(UndefinedSqlLogError) else Err(m)
  }

  // ---------------------------------------------------------------------
  // One column, one table
  // ---------------------------------------------------------------------

  /** `character_maximum_length` is truthy: present and not zero. */
  predicate HasLength(c: ColumnRow) {
    c.maxLength.Some? && c.maxLength.value != 0
  }

  /** `column_default` is truthy: present and not the empty text. */
  predicate HasDefault(c: ColumnRow) {
    c.columnDefault.Some? && c.columnDefault.value != ""
  }

  function LengthPart(c: ColumnRow): string {
    if HasLength(c) then "(" + IntToString(c.maxLength.value) + ")" else ""
  }

  function NullPart(c: ColumnRow): string {
    if c.isNullable == "NO" then " NOT NULL" else ""
  }

  /** Both branches of the quoting check in the source write the same text. */
  function DefaultPart(c: ColumnRow): string {
    if HasDefault(c) then " DEFAULT " + c.columnDefault.value else ""
  }

  /** The line for one column. */
  function ColumnDefinition(c: ColumnRow): string {
    "  " + c.name + " " + c.dataType + LengthPart(c) + NullPart(c) + DefaultPart(c)
  }

  /** A nullable column with no length and no default is just its name and type. */
  lemma PlainColumn(c: ColumnRow)
    requires !HasLength(c) && c.isNullable != "NO" && !HasDefault(c)
    ensures ColumnDefinition(c) == "  " + c.name + " " + c.dataType
  {
  }

  /** Only `is_nullable` equal to `NO` adds ` NOT NULL`, and it goes right
      after the type and length, before any default. */
  lemma NotNullInserted(c: ColumnRow, flag: string)
    requires flag != "NO"
    ensures var plain := ColumnDefinition(c.(isNullable := flag));
            var k := |plain| - |DefaultPart(c)|;
            0 <= k &&
            ColumnDefinition(c.(isNullable := "NO")) == plain[..k] + " NOT NULL" + plain[k..]
  {
    var plain := ColumnDefinition(c.(isNullable := flag));
    var head := "  " + c.name + " " + c.dataType + LengthPart(c);
    assert plain == head + DefaultPart(c);
    assert plain[..|head|] == head && plain[|head|..] == DefaultPart(c);
  }

  /** A non-empty default is appended verbatim after ` DEFAULT `; an empty one
      is ignored, as is a length of zero. */
  lemma DefaultAndLengthTruthiness(c: ColumnRow, d: string)
    ensures d != "" ==>
      ColumnDefinition(c.(columnDefault := Some(d))) == ColumnDefinition(c.(columnDefault := None)) + " DEFAULT " + d
    ensures ColumnDefinition(c.(columnDefault := Some(""))) == ColumnDefinition(c.(columnDefault := None))
    ensures ColumnDefinition(c.(maxLength := Some(0))) == ColumnDefinition(c.(maxLength := None))
  {
  }

  function ColumnDefinitions(cols: seq<ColumnRow>): (defs: seq<string>)
    ensures |defs| == |cols|
    ensures forall i :: 0 <= i < |cols| ==> defs[i] == ColumnDefinition(cols[i])
  {
    seq(|cols|, i requires 0 <= i < |cols| => ColumnDefinition(cols[i]))
  }

  /** `,\n  PRIMARY KEY (k1, k2, …)` when the table has a key. */
  function KeyClause(keys: seq<string>): string {
    if |keys| == 0 then "" else ",\n  PRIMARY KEY (" + Join(keys, ", ") + ")"
  }

  function TableOpening(schema: string, table: string): string {
    "\nCREATE TABLE " + schema + "." + table + " (\n"
  }

  const TableClosing := "\n);\n"

  /** The column lines, joined by `,\n`. */
  function ColumnList(cols: seq<ColumnRow>): string {
    Join(ColumnDefinitions(cols), ",\n")
  }

  /** The `CREATE TABLE` block of one table. */
  function TableBlock(schema: string, table: string, cols: seq<ColumnRow>, keys: seq<string>): string {
    TableOpening(schema, table) + (ColumnList(cols) + KeyClause(keys)) + TableClosing
  }

  /** Every block opens with its `CREATE TABLE` line and closes the statement. */
  lemma TableBlockEnds(schema: string, table: string, cols: seq<ColumnRow>, keys: seq<string>)
    ensures StartsWith(TableBlock(schema, table, cols, keys), TableOpening(schema, table))
    ensures EndsWith(TableBlock(schema, table, cols, keys), TableClosing)
  {
    ConcatEnds(TableOpening(schema, table), ColumnList(cols) + KeyClause(keys), TableClosing);
  }

  /** The key clause is there exactly when the table has key columns; it sits
      between the column list and the closing parenthesis. */
  lemma KeyClausePlacement(schema: string, table: string, cols: seq<ColumnRow>, keys: seq<string>)
    ensures KeyClause(keys) == [] <==> |keys| == 0
    ensures var bare := TableBlock(schema, table, cols, []);
            var cut := |bare| - |TableClosing|;
            && 0 <= cut
            && TableBlock(schema, table, cols, keys) == bare[..cut] + KeyClause(keys) + bare[cut..]
  {
    var head := TableOpening(schema, table) + ColumnList(cols);
    var k := KeyClause(keys);
    assert KeyClause([]) == [];
    assert ColumnList(cols) + [] == ColumnList(cols);
    assert TableBlock(schema, table, cols, []) == head + TableClosing;
    assert TableBlock(schema, table, cols, keys) == head + k + TableClosing;
    SpliceAt(head, k, TableClosing);
  }

  /** One more column row adds `,\n` and its line at the end of the column
      list: definitions stay in row order. */
  lemma ColumnAppended(schema: string, table: string, cols: seq<ColumnRow>, c: ColumnRow, keys: seq<string>)
    requires |cols| > 0
    ensures TableBlock(schema, table, cols + [c], keys) ==
            TableOpening(schema, table) + ColumnList(cols) + ",\n" + ColumnDefinition(c)
            + KeyClause(keys) + TableClosing
  {
    ColumnListAppend(cols, c);
    Regroup(TableOpening(schema, table), ColumnList(cols), ",\n", ColumnDefinition(c), KeyClause(keys), TableClosing);
  }

  lemma Regroup(o: string, l: string, m: string, d: string, k: string, e: string)
    ensures o + (l + m + d + k) + e == o + l + m + d + k + e
  {
  }

  lemma ColumnListAppend(cols: seq<ColumnRow>, c: ColumnRow)
    requires |cols| > 0
    ensures ColumnList(cols + [c]) == ColumnList(cols) + ",\n" + ColumnDefinition(c)
  {
    assert ColumnDefinitions(cols + [c]) == ColumnDefinitions(cols) + [ColumnDefinition(c)];
    JoinAppend(ColumnDefinitions(cols), ColumnDefinition(c), ",\n");
  }

  // ---------------------------------------------------------------------
  // The whole schema
  // ---------------------------------------------------------------------

  /** A computation that reads the catalog: its result and the catalog
      queries it sent, in order. */
  datatype Fetch = Fetch(text: Result<string>, issued: seq<CatalogQuery>)

  /** The queries the per-table loop sends when none fails: columns, then
      key, for each table in turn. */
  function LoopQueries(schema: string, tables: seq<string>): (qs: seq<CatalogQuery>)
    ensures |qs| == 2 * |tables|
  {
    if |tables| == 0 then [] else [ColumnsOf(tables[0], schema), KeysOf(tables[0], schema)] + LoopQueries(schema, tables[1..])
  }

  /** The fetch stopped at the first query that failed and rethrew its
      message unchanged; every query before it succeeded. */
  predicate FailsFirstAtLast(db: Database, f: Fetch) {
    |f.issued| > 0
    && (f.text.Err? ==> Failure(db, f.issued[|f.issued| - 1]) == Some(f.text.message))
    && (forall k :: 0 <= k < |f.issued| && (f.text.Ok? || k < |f.issued| - 1) ==> Failure(db, f.issued[k]).None?)
  }

  /** The `for (const table of tables)` loop: each table's block, in order. */
  function TableBlocks(db: Database, schema: string, tables: seq<string>): (f: Fetch)
    ensures |f.issued| <= 2 * |tables|
    ensures f.issued == LoopQueries(schema, tables)[..|f.issued|]
    ensures f.text.Ok? ==> |f.issued| == 2 * |tables|
    ensures |tables| > 0 ==> FailsFirstAtLast(db, f)
    ensures |tables| == 0 ==> f == Fetch(Ok(""), [])
    ensures f.text.Ok? && |tables| > 0 ==> EndsWith(f.text.value, TableClosing)
    decreases |tables|
  {
    if |tables| == 0 then Fetch(Ok(""), [])
    else
      var t := tables[0];
      var qc, qk := ColumnsOf(t, schema), KeysOf(t, schema);
      match db.columns(t, schema)
      case Failed(m) => Fetch(Err(m), [qc])
      case Rows(cols) =>
        match db.primaryKey(t, schema)
        case Failed(m) => Fetch(Err(m), [qc, qk])
        case Rows(keys) =>
          var rest := TableBlocks(db, schema, tables[1..]);
          var block := TableBlock(schema, t, cols, keys);
          assert LoopQueries(schema, tables) == [qc, qk] + LoopQueries(schema, tables[1..]);
          PrefixCons(qc, qk, rest.issued, LoopQueries(schema, tables[1..]));
          if rest.text.Ok? then
            TableBlockEnds(schema, t, cols, keys);
            EndsWithConcat(block, rest.text.value, TableClosing);
            Fetch(Ok(block + rest.text.value), [qc, qk] + rest.issued)
          else
            Fetch(rest.text, [qc, qk] + rest.issued)
  }

  /** Queries that all succeeded, followed by a fetch that stopped at its
      first failure (or finished), make a fetch that stopped at its first
      failure (or finished). */
  lemma FetchAfter(db: Database, pre: seq<CatalogQuery>, f: Fetch, t: Result<string>)
    requires |pre| > 0 && forall k :: 0 <= k < |pre| ==> Failure(db, pre[k]).None?
    requires |f.issued| == 0 ==> f.text.Ok?
    requires |f.issued| > 0 ==> FailsFirstAtLast(db, f)
    requires t.Ok? == f.text.Ok? && (t.Err? ==> t == f.text)
    ensures FailsFirstAtLast(db, Fetch(t, pre + f.issued))
  {
    var all := pre + f.issued;
    forall k | 0 <= k < |all| && (t.Ok? || k < |all| - 1)
      ensures Failure(db, all[k]).None?
    {
      if k >= |pre| {
        assert all[k] == f.issued[k - |pre|];
      }
    }
    if t.Err? {
      assert all[|all| - 1] == f.issued[|f.issued| - 1];
    }
  }

  lemma PrefixCons(a: CatalogQuery, b: CatalogQuery, xs: seq<CatalogQuery>, ys: seq<CatalogQuery>)
    requires |xs| <= |ys| && xs == ys[..|xs|]
    ensures [a, b] + xs == ([a, b] + ys)[..2 + |xs|]
  {
  }

  const DefaultSchema := "test"

  function NoTablesText(schema: string): string {
    "-- No tables found in '" + schema + "' schema."
  }

  /** Written as two literals: the verifier does not expose the characters
      of a string literal this long, and `DdlBody` needs the first one. */
  const DdlTitle := "-- PostgreSQL Schema " + "for context from schema '"

  /** The first line of the DDL text, without its newline. */
  function DdlHeadline(schema: string): string {
    DdlTitle + schema + "':"
  }

  function DdlHeader(schema: string): string {
    DdlHeadline(schema) + "\n"
  }

  /** `getFormattedSchemaForLLM(schemaName)`; an omitted name means `test`. */
  function FormattedSchema(db: Database, schemaName: Option<string>): (f: Fetch)
    ensures var schema := schemaName.GetOr(DefaultSchema);
            |f.issued| > 0 && f.issued[0] == TablesOf(schema) && FailsFirstAtLast(db, f)
    ensures var schema := schemaName.GetOr(DefaultSchema);
            db.tables(schema) == Rows([]) ==> f == Fetch(Ok(NoTablesText(schema)), [TablesOf(schema)])
    ensures var schema := schemaName.GetOr(DefaultSchema);
            f.text.Ok? && db.tables(schema) != Rows([]) ==> StartsWith(f.text.value, DdlHeadline(schema))
  {
    var schema := schemaName.GetOr(DefaultSchema);
    match db.tables(schema)
    case Failed(m) => Fetch(Err(m), [TablesOf(schema)])
    case Rows(ts) =>
      if |ts| == 0 then Fetch(Ok(NoTablesText(schema)), [TablesOf(schema)])
      else DdlFetch(db, schema, ts)
  }

  /** The part after a non-empty table list: the header and every table's
      block, trimmed. */
  function DdlFetch(db: Database, schema: string, ts: seq<string>): (f: Fetch)
    requires db.tables(schema) == Rows(ts) && |ts| > 0
    ensures |f.issued| > 0 && f.issued[0] == TablesOf(schema) && FailsFirstAtLast(db, f)
    ensures f.text.Ok? ==> StartsWith(f.text.value, DdlHeadline(schema))
  {
    var b := TableBlocks(db, schema, ts);
    var f := Fetch(if b.text.Ok? then Ok(Trim(DdlHeader(schema) + b.text.value)) else b.text,
                   [TablesOf(schema)] + b.issued);
    DdlFetchSound(db, schema, ts, b, f);
    f
  }

  lemma DdlFetchSound(db: Database, schema: string, ts: seq<string>, b: Fetch, f: Fetch)
    requires db.tables(schema) == Rows(ts) && |ts| > 0
    requires b == TableBlocks(db, schema, ts)
    requires f.issued == [TablesOf(schema)] + b.issued
    requires f.text == if b.text.Ok? then Ok(Trim(DdlHeader(schema) + b.text.value)) else b.text
    ensures |f.issued| > 0 && f.issued[0] == TablesOf(schema) && FailsFirstAtLast(db, f)
    ensures f.text.Ok? ==> StartsWith(f.text.value, DdlHeadline(schema))
  {
    assert |b.issued| > 0 && FailsFirstAtLast(db, b);
    if b.text.Ok? {
      assert EndsWith(b.text.value, TableClosing);
      DdlTrimmed(schema, b.text.value);
    }
    FetchAfter(db, [TablesOf(schema)], b, f.text);
  }

  /** Trimming the assembled text only drops the final newline. */
  lemma DdlTrimmed(schema: string, blocks: string)
    requires EndsWith(blocks, TableClosing)
    ensures var all := DdlHeader(schema) + blocks;
            Trim(all) == all[..|all| - 1] &&
            StartsWith(Trim(all), DdlHeadline(schema))
  {
    var h := DdlHeadline(schema);
    var all := DdlHeader(schema) + blocks;
    var body := DdlBody(schema, blocks);
    TrimAroundSpaces([], body, "\n");
    assert [] + body + "\n" == all;
    assert all[..|all| - 1] == body;
  }

  /** The assembled text without its final newline: it starts with the
      headline and ends with `;`. */
  function DdlBody(schema: string, blocks: string): (body: string)
    requires EndsWith(blocks, TableClosing)
    ensures DdlHeader(schema) + blocks == body + "\n"
    ensures StartsWith(body, DdlHeadline(schema))
    ensures |body| > 0 && body[0] == '-' && body[|body| - 1] == ';'
  {
    var h := DdlHeadline(schema);
    var n := |blocks|;
    ClosingEnd(blocks);
    var inner := blocks[..n - 1];
    assert blocks == inner + "\n";
    var body := h + "\n" + inner;
    assert body[..|h|] == h;
    assert h[0] == '-';
    assert body[|body| - 1] == inner[|inner| - 1];
    body
  }

  /** A block list ends with `;` and a newline. */
  lemma ClosingEnd(blocks: string)
    requires EndsWith(blocks, TableClosing)
    ensures |blocks| >= 2 && blocks[|blocks| - 1] == '\n' && blocks[|blocks| - 2] == ';'
  {
    var n := |blocks|;
    assert blocks[n - |TableClosing|..] == TableClosing;
    assert blocks[n - 1] == blocks[n - |TableClosing|..][|TableClosing| - 1];
    assert blocks[n - 2] == blocks[n - |TableClosing|..][|TableClosing| - 2];
  }

  /** Each table's block, in the catalog's order. */
  function BlockTexts(db: Database, schema: string, tables: seq<string>): (bs: seq<string>)
    requires forall t :: t in tables ==> db.columns(t, schema).Rows? && db.primaryKey(t, schema).Rows?
  {
    seq(|tables|, i requires 0 <= i < |tables| =>
      TableBlock(schema, tables[i], db.columns(tables[i], schema).rows, db.primaryKey(tables[i], schema).rows))
  }

  lemma BlockTextsCons(db: Database, schema: string, tables: seq<string>)
    requires |tables| > 0
    requires forall t :: t in tables ==> db.columns(t, schema).Rows? && db.primaryKey(t, schema).Rows?
    ensures var bs := BlockTexts(db, schema, tables);
            var t := tables[0];
            bs[0] == TableBlock(schema, t, db.columns(t, schema).rows, db.primaryKey(t, schema).rows) &&
            bs[1..] == BlockTexts(db, schema, tables[1..])
  {
    var bs, rs := BlockTexts(db, schema, tables), BlockTexts(db, schema, tables[1..]);
    assert |bs[1..]| == |rs|;
    forall i | 0 <= i < |rs| ensures bs[1..][i] == rs[i] {
      assert tables[1..][i] == tables[i + 1];
    }
  }

  /** One table of the loop, when both of its queries succeed. */
  lemma TableBlocksCons(db: Database, schema: string, tables: seq<string>)
    requires |tables| > 0 && db.columns(tables[0], schema).Rows? && db.primaryKey(tables[0], schema).Rows?
    ensures var t := tables[0];
            var rest := TableBlocks(db, schema, tables[1..]).text;
            var block := TableBlock(schema, t, db.columns(t, schema).rows, db.primaryKey(t, schema).rows);
            TableBlocks(db, schema, tables).text == if rest.Ok? then Ok(block + rest.value) else rest
  {
  }

  /** With every query answered, the text is each table's block, in the
      order the catalog lists the tables. */
  lemma {:induction false} BlocksInOrder(db: Database, schema: string, tables: seq<string>)
    requires forall t :: t in tables ==> db.columns(t, schema).Rows? && db.primaryKey(t, schema).Rows?
    ensures TableBlocks(db, schema, tables).text == Ok(Join(BlockTexts(db, schema, tables), ""))
    decreases |tables|
  {
    if |tables| > 0 {
      BlocksInOrder(db, schema, tables[1..]);
      TableBlocksCons(db, schema, tables);
      BlockTextsCons(db, schema, tables);
      JoinEmptySep(BlockTexts(db, schema, tables));
    }
  }

  /** When every catalog query succeeds on a non-empty schema, the text is
      the header line and each table's block in the catalog's order, with
      the final newline trimmed, and two queries went out per table. */
  lemma DdlInOrder(db: Database, schemaName: Option<string>)
    requires var schema := schemaName.GetOr(DefaultSchema);
             && db.tables(schema).Rows? && |db.tables(schema).rows| > 0
             && forall t :: t in db.tables(schema).rows ==> db.columns(t, schema).Rows? && db.primaryKey(t, schema).Rows?
    ensures var schema := schemaName.GetOr(DefaultSchema);
            var ts := db.tables(schema).rows;
            var f := FormattedSchema(db, schemaName);
            && f.text == Ok(Trim(DdlHeader(schema) + Join(BlockTexts(db, schema, ts), "")))
            && |f.issued| == 1 + 2 * |ts|
  {
    var schema := schemaName.GetOr(DefaultSchema);
    var ts := db.tables(schema).rows;
    BlocksInOrder(db, schema, ts);
  }
}

=== FILE: serverindex.dfy ===
/** The two database entry points the MCP server registers itself: the
    `schema` resource, which lists the tables of the `public` schema in a
    plain "Table:/- column:" layout, and the `query` tool, which runs SQL and
    returns the rows as JSON. */
module ServerIndex {
  import opened Results
  import opened JsText
  import opened Messages
  import opened SchemaQueries

  const PublicSchema := "public"
  const NoPublicTables := "No tables found in 'public' schema."
  const ListingTitle := "Database Schema (public):"
  const SchemaErrorPrefix := "Error fetching schema: "
  const QueryErrorPrefix := "Error executing query: "

  /** `is_nullable === "YES"` selects `NULLABLE`; any other value, `NOT NULL`. */
  function Nullability(c: ColumnRow): string {
    if c.isNullable == "YES" then "NULLABLE" else "NOT NULL"
  }

  const NullableEnd := " (NULLABLE)\n"
  const NotNullEnd := " (NOT NULL)\n"

  function ColumnLine(c: ColumnRow): (line: string)
    ensures StartsWith(line, "  - " + c.name + ": " + c.dataType + " (")
    ensures EndsWith(line, NullableEnd) <==> c.isNullable == "YES"
    ensures EndsWith(line, NotNullEnd) <==> c.isNullable != "YES"
    ensures |line| == |"  - " + c.name + ": " + c.dataType| + |" (" + Nullability(c) + ")\n"|
  {
    var head := "  - " + c.name + ": " + c.dataType;
    var tail := " (" + Nullability(c) + ")\n";
    assert tail == if c.isNullable == "YES" then NullableEnd else NotNullEnd;
    assert NullableEnd[3] != NotNullEnd[3];
    LineEnds(head, tail, NullableEnd, NotNullEnd);
    head + tail
  }

  /** A line made of a head and one of two tails of the same length starts
      with the head and the tail's first two characters, and ends with that
      tail and not the other. */
  lemma LineEnds(head: string, tail: string, a: string, b: string)
    requires |a| == |b| >= 2 && a != b && (tail == a || tail == b) && a[..2] == b[..2]
    ensures StartsWith(head + tail, head + a[..2])
    ensures EndsWith(head + tail, a) <==> tail == a
    ensures EndsWith(head + tail, b) <==> tail == b
  {
    var line := head + tail;
    assert line[|line| - |tail|..] == tail;
    assert line[..|head| + 2] == head + tail[..2];
  }

  /** The lines of a table's columns, in ordinal order. */
  function ColumnLines(cols: seq<ColumnRow>): string
    decreases |cols|
  {
    if |cols| == 0 then [] else ColumnLine(cols[0]) + ColumnLines(cols[1..])
  }

  /** A table's part of the listing: its name line, its column lines, a blank line. */
  function TableSection(table: string, cols: seq<ColumnRow>): string {
    "Table: " + table + "\n" + ColumnLines(cols) + "\n"
  }

  /** The queries of the per-table loop when none fails: one column query per table. */
  function SectionQueries(tables: seq<string>): (qs: seq<CatalogQuery>)
    ensures |qs| == |tables|
    ensures forall i :: 0 <= i < |tables| ==> qs[i] == ColumnsOf(tables[i], PublicSchema)
  {
    seq(|tables|, i requires 0 <= i < |tables| => ColumnsOf(tables[i], PublicSchema))
  }

  /** The first table's column query goes out before the rest of the
      loop's queries. */
  lemma SectionQueriesCons(tables: seq<string>, issued: seq<CatalogQuery>)
    requires |tables| > 0 && |issued| <= |tables| - 1 && issued == SectionQueries(tables[1..])[..|issued|]
    ensures [ColumnsOf(tables[0], PublicSchema)] + issued == SectionQueries(tables)[..1 + |issued|]
  {
    assert SectionQueries(tables) == [ColumnsOf(tables[0], PublicSchema)] + SectionQueries(tables[1..]);
  }

  /** The `for (const table of tables)` loop of the resource. */
  function Sections(db: Database, tables: seq<string>): (f: Fetch)
    ensures |f.issued| <= |tables| && f.issued == SectionQueries(tables)[..|f.issued|]
    ensures f.text.Ok? ==> |f.issued| == |tables|
    ensures |tables| > 0 ==> FailsFirstAtLast(db, f)
    ensures |tables| == 0 ==> f == Fetch(Ok(""), [])
    decreases |tables|
  {
    if |tables| == 0 then Fetch(Ok(""), [])
    else
      var t := tables[0];
      var q := ColumnsOf(t, PublicSchema);
      match db.columns(t, PublicSchema)
      case Failed(m) => Fetch(Err(m), [q])
      case Rows(cols) =>
        var rest := Sections(db, tables[1..]);
        SectionQueriesCons(tables, rest.issued);
        if rest.text.Ok? then
          FetchAfter(db, [q], rest, Ok(TableSection(t, cols) + rest.text.value));
          Fetch(Ok(TableSection(t, cols) + rest.text.value), [q] + rest.issued)
        else
          FetchAfter(db, [q], rest, rest.text);
          Fetch(rest.text, [q] + rest.issued)
  }

  /** What a resource read produced: its text and the catalog queries it sent. */
  datatype ResourceRead = ResourceRead(text: string, issued: seq<CatalogQuery>)

  /** The `schema` resource (`schema://main`): the listing, the no-tables
      notice, or the error message, always as text. */
  function SchemaResource(db: Database): (r: ResourceRead)
    ensures |r.issued| > 0 && r.issued[0] == TablesOf(PublicSchema)
    ensures db.tables(PublicSchema) == Rows([]) ==> r == ResourceRead(NoPublicTables, [TablesOf(PublicSchema)])
    ensures db.tables(PublicSchema).Failed? ==> r == ResourceRead(SchemaErrorPrefix + db.tables(PublicSchema).message, [TablesOf(PublicSchema)])
    ensures db.tables(PublicSchema).Rows? && |db.tables(PublicSchema).rows| > 0 ==>
              StartsWith(r.text, ListingTitle) || StartsWith(r.text, SchemaErrorPrefix)
    ensures var ts := db.tables(PublicSchema);
            ts.Rows? && |ts.rows| > 0 && Sections(db, ts.rows).text.Err? ==>
              r == ResourceRead(SchemaErrorPrefix + Sections(db, ts.rows).text.message,
                                [TablesOf(PublicSchema)] + Sections(db, ts.rows).issued)
    ensures var ts := db.tables(PublicSchema);
            ts.Rows? && |ts.rows| > 0 && Sections(db, ts.rows).text.Ok? ==>
              StartsWith(r.text, ListingTitle) && r.issued == [TablesOf(PublicSchema)] + SectionQueries(ts.rows)
  {
    match db.tables(PublicSchema)
    case Failed(m) => ResourceRead(SchemaErrorPrefix + m, [TablesOf(PublicSchema)])
    case Rows(ts) =>
      if |ts| == 0 then ResourceRead(NoPublicTables, [TablesOf(PublicSchema)])
      else
        var s := Sections(db, ts);
        var issued := [TablesOf(PublicSchema)] + s.issued;
        match s.text
        case Err(m) =>
          ConcatEnds(SchemaErrorPrefix, m, []);
          assert SchemaErrorPrefix + m + [] == SchemaErrorPrefix + m;
          ResourceRead(SchemaErrorPrefix + m, issued)
        case Ok(body) =>
          ListingTrim(body);
          ResourceRead(Trim(ListingTitle + "\n\n" + body), issued)
  }

  /** The trim only takes whitespace off the end: the title stays in front. */
  lemma ListingTrim(body: string)
    ensures StartsWith(Trim(ListingTitle + "\n\n" + body), ListingTitle)
  {
    var all := ListingTitle + "\n\n" + body;
    assert ListingTitle[0] == 'D';
    var r := Trim(all);
    assert all[0] == 'D';
    assert TrimStart(all) == all;
    var t := TrimEnd(all);
    assert r == t;
    assert t == all[..|t|];
    assert all[|ListingTitle| - 1] == ':';
    assert all[..|ListingTitle|] == ListingTitle;
    assert t[..|ListingTitle|] == all[..|ListingTitle|];
  }

  /** Each table's section, in the catalog's order. */
  function SectionTexts(db: Database, tables: seq<string>): (ss: seq<string>)
    requires forall t :: t in tables ==> db.columns(t, PublicSchema).Rows?
  {
    seq(|tables|, i requires 0 <= i < |tables| => TableSection(tables[i], db.columns(tables[i], PublicSchema).rows))
  }

  lemma SectionTextsCons(db: Database, tables: seq<string>)
    requires |tables| > 0 && forall t :: t in tables ==> db.columns(t, PublicSchema).Rows?
    ensures var ss := SectionTexts(db, tables);
            ss[0] == TableSection(tables[0], db.columns(tables[0], PublicSchema).rows) &&
            ss[1..] == SectionTexts(db, tables[1..])
  {
    var ss, rs := SectionTexts(db, tables), SectionTexts(db, tables[1..]);
    assert |ss[1..]| == |rs|;
    forall i | 0 <= i < |rs| ensures ss[1..][i] == rs[i] {
      assert tables[1..][i] == tables[i + 1];
    }
  }

  /** One table of the loop, when its column query succeeds. */
  lemma SectionsCons(db: Database, tables: seq<string>)
    requires |tables| > 0 && db.columns(tables[0], PublicSchema).Rows?
    ensures var rest := Sections(db, tables[1..]).text;
            Sections(db, tables).text ==
            if rest.Ok? then Ok(TableSection(tables[0], db.columns(tables[0], PublicSchema).rows) + rest.value) else rest
  {
  }

  /** When every table is read, the listing holds each table's section in the
      catalog's order. */
  lemma {:induction false} SectionsInOrder(db: Database, tables: seq<string>)
    requires forall t :: t in tables ==> db.columns(t, PublicSchema).Rows?
    ensures Sections(db, tables).text == Ok(Join(SectionTexts(db, tables), ""))
    decreases |tables|
  {
    if |tables| > 0 {
      SectionsInOrder(db, tables[1..]);
      SectionsCons(db, tables);
      SectionTextsCons(db, tables);
      JoinEmptySep(SectionTexts(db, tables));
    }
  }

  /** When every column query succeeds, the resource text is the title, a
      blank line and each table's section in the catalog's order, trimmed;
      one column query went out per table. */
  lemma ListingInOrder(db: Database)
    requires db.tables(PublicSchema).Rows? && |db.tables(PublicSchema).rows| > 0
    requires forall t :: t in db.tables(PublicSchema).rows ==> db.columns(t, PublicSchema).Rows?
    ensures var ts := db.tables(PublicSchema).rows;
            var r := SchemaResource(db);
            r.text == Trim(ListingTitle + "\n\n" + Join(SectionTexts(db, ts), "")) &&
            |r.issued| == 1 + |ts|
  {
    SectionsInOrder(db, db.tables(PublicSchema).rows);
  }

  /** The loop stops at the first table whose column query fails and
      rethrows that query's message; the queries up to it went out in order. */
  lemma {:induction false} SectionsFailAt(db: Database, tables: seq<string>, i: nat)
    requires i < |tables| && db.columns(tables[i], PublicSchema).Failed?
    requires forall j :: 0 <= j < i ==> db.columns(tables[j], PublicSchema).Rows?
    ensures Sections(db, tables) == Fetch(Err(db.columns(tables[i], PublicSchema).message), SectionQueries(tables)[..i + 1])
    decreases i
  {
    var q := ColumnsOf(tables[0], PublicSchema);
    assert SectionQueries(tables) == [q] + SectionQueries(tables[1..]);
    if i > 0 {
      assert db.columns(tables[0], PublicSchema).Rows?;
      forall j | 0 <= j < i - 1 ensures db.columns(tables[1..][j], PublicSchema).Rows? {
        assert tables[1..][j] == tables[j + 1];
      }
      SectionsFailAt(db, tables[1..], i - 1);
      assert SectionQueries(tables)[..i + 1] == [q] + SectionQueries(tables[1..])[..i];
    }
  }

  /** A failing column query turns the whole resource into
      `Error fetching schema: <msg>` for the first table whose query fails;
      no column query goes out after it. */
  lemma ColumnFailureReported(db: Database, i: nat)
    requires db.tables(PublicSchema).Rows? && i < |db.tables(PublicSchema).rows|
    requires var ts := db.tables(PublicSchema).rows;
             db.columns(ts[i], PublicSchema).Failed? &&
             forall j :: 0 <= j < i ==> db.columns(ts[j], PublicSchema).Rows?
    ensures var ts := db.tables(PublicSchema).rows;
            SchemaResource(db) ==
            ResourceRead(SchemaErrorPrefix + db.columns(ts[i], PublicSchema).message,
                         [TablesOf(PublicSchema)] + SectionQueries(ts)[..i + 1])
  {
    SectionsFailAt(db, db.tables(PublicSchema).rows, i);
  }

  /** The `query` tool: the rows as JSON, or the error text with `isError`. */
  function QueryTool(db: Database, sql: string): (r: ToolResponse)
    ensures r.isError <==> db.execute(Some(sql)).QueryFailed?
    ensures !r.isError ==> r.text == db.execute(Some(sql)).json
    ensures r.isError ==> StartsWith(r.text, QueryErrorPrefix) && r.text[|QueryErrorPrefix|..] == db.execute(Some(sql)).message
    ensures r.errorDetails.None?
  {
    match ExecuteQuery(db, Some(sql))
    case Ok(json) => ToolResponse(json, false, None)
    case Err(m) =>
      var t := QueryErrorPrefix + m;
      assert t[..|QueryErrorPrefix|] == QueryErrorPrefix && t[|QueryErrorPrefix|..] == m;
      ToolResponse(t, true, None)
  }
}

=== FILE: texttosql.dfy ===
/** The `textToSql` tool: fetch the schema text, refuse an empty schema,
    ask the generator for SQL, and report a refusal or a failure. */
module TextToSqlTool {
  import opened Results
  import opened JsText
  import opened Messages
  import opened OllamaService
  import opened SchemaQueries

  const MinQueryLength := 3
  const ShortQueryMessage := "Natural query must be at least 3 characters long"
  const NoTablesMarker := "-- No tables found"
  const EmptySchemaMessage := "Error: Database schema is empty or could not be fetched for LLM."
  const RefusalPrefix := "error:"
  const FailurePrefix := "Error generating SQL: "
  /** The number of characters of an error message the tool keeps. */
  const MaxDetail := 500

  /** What the tool answered, and the question and schema text it handed
      to the generator, if it got that far. */
  datatype Outcome = Outcome(response: ToolResponse, generatorInput: Option<(string, string)>)

  /** The answer for an error caught while fetching or generating. */
  function Failure(message: string): (t: ToolResponse)
    ensures t.isError && t.errorDetails.None?
    ensures StartsWith(t.text, FailurePrefix) && |t.text| <= |FailurePrefix| + MaxDetail
    ensures |message| <= MaxDetail ==> t.text == FailurePrefix + message
    ensures |message| > MaxDetail ==> |t.text| == |FailurePrefix| + MaxDetail
  {
    ToolResponse(FailurePrefix + Take(message, MaxDetail), true, None)
  }

  /** Generated text the model used to decline, in any letter case. */
  predicate IsRefusal(sql: string) {
    StartsWith(ToLower(sql), RefusalPrefix)
  }

  /** The tool handler, for the schema in `db` and the generator's answer
      `reply`; `Err` is the argument check that precedes the handler. */
  function TextToSql(cfg: Config, db: Database, naturalQuery: string, reply: ChatOutcome): (r: Result<Outcome>)
    ensures r.Err? <==> |naturalQuery| < MinQueryLength
    ensures var schema := FormattedSchema(db, None).text;
            r.Ok? ==> (r.value.generatorInput.Some? <==> schema.Ok? && !Contains(schema.value, NoTablesMarker))
    ensures r.Ok? && r.value.generatorInput.Some? ==>
              r.value.generatorInput.value == (naturalQuery, FormattedSchema(db, None).text.value)
    ensures r.Ok? ==>
              (!r.value.response.isError <==>
               r.value.generatorInput.Some? && SqlReply(cfg, reply).Ok? && !IsRefusal(SqlReply(cfg, reply).value))
    ensures r.Ok? && !r.value.response.isError ==> r.value.response.text == SqlReply(cfg, reply).value
    ensures r.Ok? ==> r.value.response.errorDetails.None?
    ensures var schema := FormattedSchema(db, None).text;
            r.Ok? && schema.Err? ==> r.value.response == Failure(schema.message)
    ensures var schema := FormattedSchema(db, None).text;
            r.Ok? && schema.Ok? && Contains(schema.value, NoTablesMarker) ==>
              r.value.response == ToolResponse(EmptySchemaMessage, true, None)
    ensures r.Ok? && r.value.generatorInput.Some? && SqlReply(cfg, reply).Err? ==>
              r.value.response == Failure(SqlReply(cfg, reply).message)
    ensures r.Ok? && r.value.generatorInput.Some? && SqlReply(cfg, reply).Ok? ==>
              r.value.response == ToolResponse(SqlReply(cfg, reply).value, IsRefusal(SqlReply(cfg, reply).value), None)
  {
    if |naturalQuery| < MinQueryLength then Err(ShortQueryMessage)
    else
      match FormattedSchema(db, None).text
      case Err(m) => Ok(Outcome(Failure(m), None))
      case Ok(schema) =>
        if Contains(schema, NoTablesMarker) then Ok(Outcome(ToolResponse(EmptySchemaMessage, true, None), None))
        else
          var asked := Some((naturalQuery, schema));
          match SqlReply(cfg, reply)
          case Err(m) => Ok(Outcome(Failure(m), asked))
          case Ok(sql) => Ok(Outcome(ToolResponse(sql, IsRefusal(sql), None), asked))
  }

  /** A text that starts with `t` contains it. */
  lemma ContainsAtStart(s: string, t: string)
    requires StartsWith(s, t)
    ensures Contains(s, t)
  {
  }

  /** An empty default schema stops the tool before the generator is asked. */
  lemma NoTablesShortCircuit(cfg: Config, db: Database, naturalQuery: string, reply: ChatOutcome)
    requires |naturalQuery| >= MinQueryLength
    requires db.tables(DefaultSchema) == Rows([])
    ensures TextToSql(cfg, db, naturalQuery, reply) == Ok(Outcome(ToolResponse(EmptySchemaMessage, true, None), None))
  {
    var text := NoTablesText(DefaultSchema);
    assert text[..|NoTablesMarker|] == NoTablesMarker;
    ContainsAtStart(text, NoTablesMarker);
  }

  /** A refusal is passed on verbatim, flagged as an error. */
  lemma RefusalKeptVerbatim(cfg: Config, db: Database, naturalQuery: string, reply: ChatOutcome, sql: string)
    requires |naturalQuery| >= MinQueryLength
    requires FormattedSchema(db, None).text.Ok? && !Contains(FormattedSchema(db, None).text.value, NoTablesMarker)
    requires SqlReply(cfg, reply) == Ok(sql) && IsRefusal(sql)
    ensures TextToSql(cfg, db, naturalQuery, reply).value.response == ToolResponse(sql, true, None)
  {
  }

  /** The message behind a failure's prefix is the start of the caught
      message, all of it when it is short enough. */
  lemma FailureDetail(message: string)
    ensures var t := Failure(message).text;
            StartsWith(message, t[|FailurePrefix|..]) &&
            |t[|FailurePrefix|..]| == if |message| <= MaxDetail then |message| else MaxDetail
  {
    var t := Failure(message).text;
    assert t[|FailurePrefix|..] == Take(message, MaxDetail);
  }
}

=== FILE: toolcall.dfy ===
/** How the orchestrator reads a language-model decision: the tool-call
    pattern `/<tool_code>(\w+)\((.*)\)<\/tool_code>/`, the quote-aware comma
    split of the argument text, the `split(/=(.*)/s)` of each piece and the
    unquoting of values (src/tools/interaction.tool.ts:116-145), plus the
    quote escaping used when the orchestrator writes a tool call itself
    (lines 179-182). */
module ToolCallParser {
  import opened Results
  import opened JsText

  const OpenTag: string := "<tool_code>"
  const CloseTag: string := ")</tool_code>"

  /** A match of the tool-call pattern: where it starts (`match.index`), the
      first capture (the tool name) and the second (the argument text). */
  datatype ToolCall = ToolCall(index: nat, name: string, args: string)

  predicate HasAt(s: string, p: nat, t: string) {
    p + |t| <= |s| && s[p..p + |t|] == t
  }

  predicate AllWordChars(s: string) {
    forall k :: 0 <= k < |s| ==> IsWordChar(s[k])
  }

  predicate NoLineTerminator(s: string) {
    forall k :: 0 <= k < |s| ==> !IsLineTerminator(s[k])
  }

  /** The text the pattern matches, with `name` for `(\w+)` and `args` for `(.*)`. */
  function CallText(name: string, args: string): string {
    OpenTag + name + "(" + args + CloseTag
  }

  /** The pattern can match at `p` with these two captures. */
  ghost predicate CallAt(s: string, p: nat, name: string, args: string) {
    && |name| > 0 && AllWordChars(name) && NoLineTerminator(args)
    && HasAt(s, p, CallText(name, args))
  }

  // ---------------------------------------------------------------------
  // The regular-expression match, position by position
  // ---------------------------------------------------------------------

  /** End of the run of `\w` characters starting at `i`. */
  function WordEnd(s: string, i: nat): (j: nat)
    requires i <= |s|
    ensures i <= j <= |s|
    ensures forall k :: i <= k < j ==> IsWordChar(s[k])
    ensures j < |s| ==> !IsWordChar(s[j])
    decreases |s| - i
  {
    if i < |s| && IsWordChar(s[i]) then WordEnd(s, i + 1) else i
  }

  /** End of the run of characters `.` matches, starting at `i`. */
  function LineEnd(s: string, i: nat): (j: nat)
    requires i <= |s|
    ensures i <= j <= |s|
    ensures forall k :: i <= k < j ==> !IsLineTerminator(s[k])
    ensures j < |s| ==> IsLineTerminator(s[j])
    decreases |s| - i
  {
    if i < |s| && !IsLineTerminator(s[i]) then LineEnd(s, i + 1) else i
  }

  /** The last position in `lo..hi` where `)</tool_code>` starts: what the
      greedy `(.*)` backtracks to. */
  function LastCloseIn(s: string, lo: nat, hi: nat): (r: Option<nat>)
    requires lo <= hi <= |s|
    ensures r.Some? ==> lo <= r.value <= hi && HasAt(s, r.value, CloseTag)
    ensures r.Some? ==> forall j :: r.value < j <= hi ==> !HasAt(s, j, CloseTag)
    ensures r.None? ==> forall j :: lo <= j <= hi ==> !HasAt(s, j, CloseTag)
    decreases hi - lo
  {
    if HasAt(s, hi, CloseTag) then Some(hi)
    else if hi == lo then None
    else LastCloseIn(s, lo, hi - 1)
  }

  /** The match attempt at one start position. */
  function MatchAt(s: string, p: nat): Option<ToolCall>
    requires p <= |s|
  {
    if !HasAt(s, p, OpenTag) then None
    else
      var nameStart := p + |OpenTag|;
      var nameEnd := WordEnd(s, nameStart);
      if nameEnd == nameStart || nameEnd == |s| || s[nameEnd] != '(' then None
      else
        var argStart := nameEnd + 1;
        match LastCloseIn(s, argStart, LineEnd(s, argStart))
        case None => None
        case Some(j) => Some(ToolCall(p, s[nameStart..nameEnd], s[argStart..j]))
  }

  function MatchFrom(s: string, p: nat): Option<ToolCall>
    requires p <= |s|
    decreases |s| - p
  {
    match MatchAt(s, p)
    case Some(c) => Some(c)
    case None => if p == |s| then None else MatchFrom(s, p + 1)
  }

  /** `decision.match(/<tool_code>(\w+)\((.*)\)<\/tool_code>/)`: the pattern is
      unanchored, so the first start position with a match wins. */
  function MatchToolCall(s: string): Option<ToolCall> {
    MatchFrom(s, 0)
  }

  lemma HasAtConcat(s: string, p: nat, x: string, y: string)
    ensures HasAt(s, p, x + y) <==> HasAt(s, p, x) && HasAt(s, p + |x|, y)
  {
    if HasAt(s, p, x) && HasAt(s, p + |x|, y) {
      assert s[p..p + |x + y|] == s[p..p + |x|] + s[p + |x|..p + |x| + |y|];
    }
    if HasAt(s, p, x + y) {
      assert s[p..p + |x|] == s[p..p + |x + y|][..|x|];
      assert s[p + |x|..p + |x| + |y|] == s[p..p + |x + y|][|x|..];
    }
  }

  /** The pieces of a match, read back from the text. */
  lemma CallAtParts(s: string, p: nat, name: string, args: string)
    ensures HasAt(s, p, CallText(name, args)) <==>
      && HasAt(s, p, OpenTag)
      && HasAt(s, p + |OpenTag|, name)
      && HasAt(s, p + |OpenTag| + |name|, "(")
      && HasAt(s, p + |OpenTag| + |name| + 1, args)
      && HasAt(s, p + |OpenTag| + |name| + 1 + |args|, CloseTag)
  {
    HasAtConcat(s, p, OpenTag + name + "(" + args, CloseTag);
    HasAtConcat(s, p, OpenTag + name + "(", args);
    HasAtConcat(s, p, OpenTag + name, "(");
    HasAtConcat(s, p, OpenTag, name);
  }

  /** What one match attempt returns is a match at that position. */
  lemma MatchAtIsCall(s: string, p: nat)
    requires p <= |s|
    requires MatchAt(s, p).Some?
    ensures MatchAt(s, p).value.index == p
    ensures CallAt(s, p, MatchAt(s, p).value.name, MatchAt(s, p).value.args)
  {
    var c := MatchAt(s, p).value;
    var nameStart := p + |OpenTag|;
    var nameEnd := WordEnd(s, nameStart);
    var argStart := nameEnd + 1;
    var j := LastCloseIn(s, argStart, LineEnd(s, argStart)).value;
    assert c.name == s[nameStart..nameEnd];
    assert c.args == s[argStart..j];
    WordRunChars(s, nameStart);
    LineRunChars(s, argStart, j);
    assert HasAt(s, nameStart, c.name);
    assert HasAt(s, argStart, c.args);
    CallAtParts(s, p, c.name, c.args);
  }

  lemma WordRunChars(s: string, i: nat)
    requires i <= |s|
    ensures AllWordChars(s[i..WordEnd(s, i)])
  {
    var w := s[i..WordEnd(s, i)];
    forall k | 0 <= k < |w| ensures IsWordChar(w[k]) {
      assert w[k] == s[i + k];
    }
  }

  lemma LineRunChars(s: string, i: nat, j: nat)
    requires i <= |s| && i <= j <= LineEnd(s, i)
    ensures NoLineTerminator(s[i..j])
  {
    var a := s[i..j];
    forall k | 0 <= k < |a| ensures !IsLineTerminator(a[k]) {
      assert a[k] == s[i + k];
    }
  }

  /** Any match at the position of a match attempt has the same name and an
      argument capture no longer than the attempt's. */
  lemma MatchAtLongest(s: string, p: nat, n: string, a: string)
    requires p <= |s|
    requires MatchAt(s, p).Some? && CallAt(s, p, n, a)
    ensures n == MatchAt(s, p).value.name && |a| <= |MatchAt(s, p).value.args|
  {
    var nameStart := p + |OpenTag|;
    CallAtParts(s, p, n, a);
    NameIsWordRun(s, nameStart, n);
    var argStart := nameStart + |n| + 1;
    ArgsWithinLine(s, argStart, a);
    assert HasAt(s, argStart + |a|, CloseTag);
  }

  /** What one match attempt returns is a match, and it has the longest
      argument capture among the matches at that position. */
  lemma MatchAtSound(s: string, p: nat)
    requires p <= |s|
    requires MatchAt(s, p).Some?
    ensures MatchAt(s, p).value.index == p
    ensures CallAt(s, p, MatchAt(s, p).value.name, MatchAt(s, p).value.args)
    ensures forall n, a :: CallAt(s, p, n, a) ==> n == MatchAt(s, p).value.name && |a| <= |MatchAt(s, p).value.args|
  {
    MatchAtIsCall(s, p);
    forall n, a | CallAt(s, p, n, a)
      ensures n == MatchAt(s, p).value.name && |a| <= |MatchAt(s, p).value.args|
    {
      MatchAtLongest(s, p, n, a);
    }
  }

  /** A capture for `(\w+)` followed by `(` is the whole run of word characters. */
  lemma NameIsWordRun(s: string, i: nat, n: string)
    requires i <= |s|
    requires AllWordChars(n) && HasAt(s, i, n) && HasAt(s, i + |n|, "(")
    ensures WordEnd(s, i) == i + |n|
  {
    assert s[i + |n|] == '(';
  }

  /** An argument capture stays on one line. */
  lemma ArgsWithinLine(s: string, i: nat, a: string)
    requires i <= |s|
    requires NoLineTerminator(a) && HasAt(s, i, a)
    ensures i + |a| <= LineEnd(s, i)
  {
  }

  /** A match attempt at `p` fails only when the pattern cannot match there. */
  lemma MatchAtComplete(s: string, p: nat, n: string, a: string)
    requires p <= |s|
    requires CallAt(s, p, n, a)
    ensures MatchAt(s, p).Some?
  {
    CallAtParts(s, p, n, a);
    var nameStart := p + |OpenTag|;
    NameIsWordRun(s, nameStart, n);
    var argStart := nameStart + |n| + 1;
    ArgsWithinLine(s, argStart, a);
    var le := LineEnd(s, argStart);
    assert HasAt(s, argStart + |a|, CloseTag);
    assert s[nameStart + |n|] == '(';
  }

  lemma MatchFromProperties(s: string, p: nat)
    requires p <= |s|
    ensures MatchFrom(s, p).Some? ==>
      var c := MatchFrom(s, p).value;
      && p <= c.index <= |s|
      && MatchAt(s, c.index) == Some(c)
      && forall q: nat, n, a :: p <= q < c.index && CallAt(s, q, n, a) ==> false
    ensures MatchFrom(s, p).None? ==> forall q: nat, n, a :: p <= q && CallAt(s, q, n, a) ==> false
    decreases |s| - p
  {
    if MatchAt(s, p).Some? {
      MatchAtSound(s, p);
    } else {
      forall n, a | CallAt(s, p, n, a) ensures false {
        MatchAtComplete(s, p, n, a);
      }
      if p < |s| {
        MatchFromProperties(s, p + 1);
      }
    }
  }

  /** The pattern match is exactly the leftmost, then greediest, occurrence of
      `<tool_code>NAME(ARGS)</tool_code>` with ARGS on one line; prose around it
      does not matter. */
  lemma MatchToolCallSpec(s: string)
    ensures MatchToolCall(s).Some? ==>
      var c := MatchToolCall(s).value;
      && CallAt(s, c.index, c.name, c.args)
      && (forall q: nat, n, a :: q < c.index && CallAt(s, q, n, a) ==> false)
      && (forall n, a :: CallAt(s, c.index, n, a) ==> n == c.name && |a| <= |c.args|)
    ensures MatchToolCall(s).None? <==> forall q: nat, n, a :: !CallAt(s, q, n, a)
  {
    MatchFromProperties(s, 0);
    if MatchToolCall(s).Some? {
      var c := MatchToolCall(s).value;
      MatchAtSound(s, c.index);
    }
  }

  // ---------------------------------------------------------------------
  // paramsString.split(/,\s*(?=(?:[^'"]*['"][^'"]*['"])*[^'"]*$)/)
  // ---------------------------------------------------------------------

  predicate IsQuote(c: char) {
    c == '\'' || c == '"'
  }

  /** Number of `'` and `"` characters, taken together, from `i` to the end. */
  function QuotesFrom(s: string, i: nat): nat
    requires i <= |s|
    decreases |s| - i
  {
    if i == |s| then 0 else (if IsQuote(s[i]) then 1 else 0) + QuotesFrom(s, i + 1)
  }

  /** Whether the quote characters from `i` to the end pair up, tracked as a
      parity flag. */
  predicate EvenQuotesFrom(s: string, i: nat)
    requires i <= |s|
    decreases |s| - i
  {
    if i == |s| then true else if IsQuote(s[i]) then !EvenQuotesFrom(s, i + 1) else EvenQuotesFrom(s, i + 1)
  }

  /** The parity flag is the parity of the count. */
  lemma {:induction false} EvenQuotesCount(s: string, i: nat)
    requires i <= |s|
    ensures EvenQuotesFrom(s, i) <==> QuotesFrom(s, i) % 2 == 0
    decreases |s| - i
  {
    if i < |s| {
      EvenQuotesCount(s, i + 1);
    }
  }

  /** The separator can start at `i`: a comma, and an even number of quote
      characters after it (the lookahead `(?:[^'"]*['"][^'"]*['"])*[^'"]*$`). */
  predicate SplitsAt(s: string, i: nat)
    requires i < |s|
  {
    s[i] == ',' && EvenQuotesFrom(s, i + 1)
  }

  /** Whitespace is not a quote, so `\s*` never changes the parity the
      lookahead sees: the separator is the comma and all whitespace after it. */
  function SkipSpaces(s: string, i: nat): (j: nat)
    requires i <= |s|
    ensures i <= j <= |s|
    ensures forall k :: i <= k < j ==> IsSpace(s[k])
    ensures j < |s| ==> !IsSpace(s[j])
    decreases |s| - i
  {
    if i < |s| && IsSpace(s[i]) then SkipSpaces(s, i + 1) else i
  }

  /** The first separator at or after `i`, or `|s|`. */
  function NextCut(s: string, i: nat): (c: nat)
    requires i <= |s|
    ensures i <= c <= |s|
    ensures c < |s| ==> SplitsAt(s, c)
    decreases |s| - i
  {
    if i == |s| || SplitsAt(s, i) then i else NextCut(s, i + 1)
  }

  /** No separator starts before the one `NextCut` finds. */
  lemma {:induction false} NextCutIsFirst(s: string, i: nat)
    requires i <= |s|
    ensures forall k :: i <= k < NextCut(s, i) ==> !SplitsAt(s, k)
    decreases |s| - i
  {
    if i < |s| && !SplitsAt(s, i) {
      NextCutIsFirst(s, i + 1);
    }
  }

  /** `split` scanning `s` from `p`, as ECMAScript's SplitMatcher loop does. */
  function SplitFrom(s: string, p: nat): (pieces: seq<string>)
    requires p <= |s|
    ensures |pieces| >= 1
    decreases |s| - p
  {
    var c := NextCut(s, p);
    if c == |s| then [s[p..]] else [s[p..c]] + SplitFrom(s, SkipSpaces(s, c + 1))
  }

  function SplitArgs(s: string): seq<string> {
    SplitFrom(s, 0)
  }

  /** `t` is the text of `s` from `k` on. */
  predicate SuffixAt(s: string, k: nat, t: string) {
    k + |t| == |s| && forall i :: 0 <= i < |t| ==> t[i] == s[k + i]
  }

  lemma {:induction false} QuotesFromSuffix(s: string, k: nat, t: string, i: nat)
    requires SuffixAt(s, k, t) && i <= |t|
    ensures EvenQuotesFrom(s, k + i) == EvenQuotesFrom(t, i)
    decreases |t| - i
  {
    if i < |t| {
      QuotesFromSuffix(s, k, t, i + 1);
    }
  }

  /** The lookahead only sees the text to the end, so a separator of `s` at
      `k + i` is a separator of the suffix at `i`. */
  lemma SplitsAtSuffix(s: string, k: nat, t: string, i: nat)
    requires SuffixAt(s, k, t) && i < |t|
    ensures SplitsAt(s, k + i) <==> SplitsAt(t, i)
  {
    QuotesFromSuffix(s, k, t, i + 1);
  }

  lemma {:induction false} NextCutSuffix(s: string, k: nat, t: string, i: nat)
    requires SuffixAt(s, k, t) && i <= |t|
    ensures NextCut(s, k + i) == NextCut(t, i) + k
    decreases |t| - i
  {
    if i < |t| {
      SplitsAtSuffix(s, k, t, i);
      if !SplitsAt(t, i) {
        NextCutSuffix(s, k, t, i + 1);
      }
    }
  }

  lemma {:induction false} SkipSpacesSuffix(s: string, k: nat, t: string, i: nat)
    requires SuffixAt(s, k, t) && i <= |t|
    ensures SkipSpaces(s, k + i) == SkipSpaces(t, i) + k
    decreases |t| - i
  {
    if i < |t| && IsSpace(t[i]) {
      SkipSpacesSuffix(s, k, t, i + 1);
    }
  }

  lemma SliceOfSuffix(s: string, k: nat, t: string, a: nat, b: nat)
    requires SuffixAt(s, k, t) && a <= b <= |t|
    ensures s[k + a..k + b] == t[a..b]
  {
  }

  /** The split from `p` when the first separator is at `c < |s|` and the
      next piece starts at `n`. */
  lemma SplitFromCut(s: string, p: nat, c: nat, n: nat)
    requires p <= c < |s| && c == NextCut(s, p) && n == SkipSpaces(s, c + 1)
    ensures SplitFrom(s, p) == [s[p..c]] + SplitFrom(s, n)
  {
  }

  /** The split from `p` when no separator follows `p`. */
  lemma SplitFromLast(s: string, p: nat)
    requires p <= |s| && NextCut(s, p) == |s|
    ensures SplitFrom(s, p) == [s[p..|s|]]
  {
    assert s[p..] == s[p..|s|];
  }

  /** Where a cut of the suffix lies in the text, and where the rest resumes. */
  lemma SuffixCutAt(s: string, k: nat, t: string, i: nat, c: nat, n: nat)
    requires SuffixAt(s, k, t) && i <= c < |t| && c == NextCut(t, i) && n == SkipSpaces(t, c + 1)
    ensures k + c < |s| && NextCut(s, k + i) == k + c && SkipSpaces(s, k + c + 1) == k + n
    ensures s[k + i..k + c] == t[i..c]
  {
    NextCutSuffix(s, k, t, i);
    SkipSpacesSuffix(s, k, t, c + 1);
    SliceOfSuffix(s, k, t, i, c);
  }

  /** Two texts whose splits cut at corresponding places with the same piece
      and agree on the rest agree from those places. */
  lemma CutsAgree(s: string, p: nat, c: nat, n: nat, t: string, i: nat, c': nat, n': nat)
    requires p <= c < |s| && c == NextCut(s, p) && n == SkipSpaces(s, c + 1)
    requires i <= c' < |t| && c' == NextCut(t, i) && n' == SkipSpaces(t, c' + 1)
    requires s[p..c] == t[i..c'] && SplitFrom(s, n) == SplitFrom(t, n')
    ensures SplitFrom(s, p) == SplitFrom(t, i)
  {
    SplitFromCut(s, p, c, n);
    SplitFromCut(t, i, c', n');
  }

  /** A cut of the suffix is a cut of the text, and the pieces agree once
      the rest of the split does. */
  lemma SuffixCutStep(s: string, k: nat, t: string, i: nat, c: nat, n: nat)
    requires SuffixAt(s, k, t) && i <= c < |t| && c == NextCut(t, i) && n == SkipSpaces(t, c + 1)
    requires SplitFrom(s, k + n) == SplitFrom(t, n)
    ensures SplitFrom(s, k + i) == SplitFrom(t, i)
  {
    SuffixCutAt(s, k, t, i, c, n);
    CutsAgree(s, k + i, k + c, k + n, t, i, c, n);
  }

  /** With no cut left in the suffix, both splits are the rest of the text. */
  lemma SuffixLastStep(s: string, k: nat, t: string, i: nat)
    requires SuffixAt(s, k, t) && i <= |t| && NextCut(t, i) == |t|
    ensures SplitFrom(s, k + i) == SplitFrom(t, i)
  {
    NextCutSuffix(s, k, t, i);
    SliceOfSuffix(s, k, t, i, |t|);
    SplitFromLast(s, k + i);
    SplitFromLast(t, i);
  }

  lemma {:induction false} SplitFromSuffix(s: string, k: nat, t: string, i: nat)
    requires SuffixAt(s, k, t) && i <= |t|
    ensures SplitFrom(s, k + i) == SplitFrom(t, i)
    decreases |t| - i
  {
    var c := NextCut(t, i);
    if c < |t| {
      var n := SkipSpaces(t, c + 1);
      SplitFromSuffix(s, k, t, n);
      SuffixCutStep(s, k, t, i, c, n);
    } else {
      SuffixLastStep(s, k, t, i);
    }
  }

  lemma NextCutAtFirst(s: string, i: nat)
    requires i < |s| && SplitsAt(s, i)
    requires forall k :: 0 <= k < i ==> !SplitsAt(s, k)
    ensures NextCut(s, 0) == i
  {
    NextCutIsFirst(s, 0);
  }

  /** With no comma followed by an even number of quote characters, the
      argument text is a single piece. */
  lemma SplitArgsWhole(s: string)
    requires forall i :: 0 <= i < |s| ==> !SplitsAt(s, i)
    ensures SplitArgs(s) == [s]
  {
    assert NextCut(s, 0) == |s|;
    assert s[0..] == s;
  }

  /** The first piece runs up to the first comma followed by an even number of
      quote characters; the remaining pieces are the split of the text after
      that comma and the whitespace that follows it. */
  lemma SplitArgsFirst(s: string, i: nat)
    requires i < |s| && SplitsAt(s, i)
    requires forall k :: 0 <= k < i ==> !SplitsAt(s, k)
    ensures SplitArgs(s)[0] == s[..i]
    ensures SplitArgs(s)[1..] == SplitArgs(s[SkipSpaces(s, i + 1)..])
  {
    NextCutAtFirst(s, i);
    var n := SkipSpaces(s, i + 1);
    SplitFromCut(s, 0, i, n);
    var rest := SplitFrom(s, n);
    assert SplitArgs(s) == [s[0..i]] + rest;
    ConsParts(s[0..i], rest);
    SplitFromTail(s, n);
    assert rest == SplitArgs(s[n..]);
    assert s[0..i] == s[..i];
  }

  /** Splitting from `n` is splitting the text from `n` on. */
  lemma SplitFromTail(s: string, n: nat)
    requires n <= |s|
    ensures SplitFrom(s, n) == SplitArgs(s[n..])
  {
    var t := s[n..];
    assert SuffixAt(s, n, t);
    SplitFromSuffix(s, n, t, 0);
    assert n + 0 == n;
  }

  lemma ConsParts<T>(x: T, r: seq<T>)
    ensures ([x] + r)[0] == x && ([x] + r)[1..] == r
  {
  }

  // ---------------------------------------------------------------------
  // param.split(/=(.*)/s) and the parameter map
  // ---------------------------------------------------------------------

  function IndexOf(s: string, c: char): (i: nat)
    ensures i <= |s|
    ensures i < |s| ==> s[i] == c
    ensures forall k :: 0 <= k < i ==> s[k] != c
  {
    if |s| == 0 then 0 else if s[0] == c then 0 else 1 + IndexOf(s[1..], c)
  }

  /** `piece.split(/=(.*)/s)`: the regex matches at the first `=` and its
      capture takes everything after it, so `split` yields the text before,
      the capture, and the empty remainder; with no `=` the piece itself. */
  function SplitOnEquals(piece: string): (parts: seq<string>)
    ensures |parts| == 1 || |parts| == 3
    ensures |parts| == 3 <==> '=' in piece
    ensures |parts| == 1 ==> parts[0] == piece
    ensures |parts| == 3 ==> '=' !in parts[0] && parts[0] + "=" + parts[1] == piece && parts[2] == ""
  {
    var i := IndexOf(piece, '=');
    if i == |piece| then [piece]
    else
      assert piece[..i] + "=" + piece[i + 1..] == piece;
      [piece[..i], piece[i + 1..], ""]
  }

  /** JavaScript's `substring(start, end)`: the bounds are clamped and
      swapped when `start > end`. */
  function Substring(s: string, start: nat, end: nat): (r: string)
  {
    var a := if start <= |s| then start else |s|;
    var b := if end <= |s| then end else |s|;
    if a <= b then s[a..b] else s[b..a]
  }

  /** `.replace(/\\q/g, q)`: every `\q`, left to right and not overlapping,
      becomes `q`. */
  function UnescapeQuote(s: string, q: char): string {
    if |s| >= 2 && s[0] == '\\' && s[1] == q then [q] + UnescapeQuote(s[2..], q)
    else if |s| == 0 then []
    else [s[0]] + UnescapeQuote(s[1..], q)
  }

  /** `.replace(/q/g, "\\q")`: a backslash before every `q`. */
  function EscapeQuote(s: string, q: char): string {
    if |s| == 0 then [] else (if s[0] == q then ['\\', q] else [s[0]]) + EscapeQuote(s[1..], q)
  }

  /** Unquoting of a trimmed value: a value starting and ending with `'`
      loses that pair and has `\'` unescaped; the same for `"`; anything else
      is kept. A one-character value `'` keeps its quote, since
      `substring(1, 0)` swaps its bounds. */
  function Unquote(v: string): string {
    if StartsWith(v, "'") && EndsWith(v, "'") then UnescapeQuote(Substring(v, 1, |v| - 1), '\'')
    else if StartsWith(v, "\"") && EndsWith(v, "\"") then UnescapeQuote(Substring(v, 1, |v| - 1), '"')
    else v
  }

  /** The forEach body: only a two-part split records a parameter. */
  function AddParam(params: map<string, string>, piece: string): map<string, string> {
    var parts := SplitOnEquals(piece);
    if |parts| == 2 then params[Trim(parts[0]) := Unquote(Trim(parts[1]))] else params
  }

  function ParamsOf(pieces: seq<string>, params: map<string, string>): map<string, string> {
    if |pieces| == 0 then params else ParamsOf(pieces[1..], AddParam(params, pieces[0]))
  }

  /** The whole argument parse (lines 124-149). Nothing in it can throw, so it
      always succeeds; and because every split has one or three parts, the
      `parts.length === 2` guard never holds and the map stays empty. */
  function ParseParams(args: string): (r: Result<map<string, string>>)
    ensures r == Ok(map[])
  {
    ParamsUnchanged(SplitArgs(args), map[]);
    Ok(ParamsOf(SplitArgs(args), map[]))
  }

  lemma {:induction false} ParamsUnchanged(pieces: seq<string>, params: map<string, string>)
    ensures ParamsOf(pieces, params) == params
  {
    if |pieces| > 0 {
      assert AddParam(params, pieces[0]) == params;
      ParamsUnchanged(pieces[1..], params);
    }
  }

  // ---------------------------------------------------------------------
  // Escaping round trip and the synthesized query call
  // ---------------------------------------------------------------------

  lemma {:induction false} UnescapeEscape(s: string, q: char)
    requires q != '\\'
    ensures UnescapeQuote(EscapeQuote(s, q), q) == s
  {
    if |s| > 0 {
      UnescapeEscape(s[1..], q);
      var e := EscapeQuote(s, q);
      if s[0] == q {
        assert e[2..] == EscapeQuote(s[1..], q);
      } else {
        assert e[1..] == EscapeQuote(s[1..], q);
        if s[0] == '\\' && |e| >= 2 {
          // the escape after a backslash never starts with `q`
          assert e[1] != q;
        }
      }
      assert [s[0]] + s[1..] == s;
    }
  }

  /** Escaping every `q` and then unquoting with the same quote character
      gives the text back, whatever it contains. */
  lemma UnquoteEscaped(s: string, q: char)
    requires q == '\'' || q == '"'
    ensures Unquote([q] + EscapeQuote(s, q) + [q]) == s
  {
    var v := [q] + EscapeQuote(s, q) + [q];
    assert Substring(v, 1, |v| - 1) == EscapeQuote(s, q);
    UnescapeEscape(s, q);
  }

  /** A value that is not wrapped in one kind of quote is kept as it is. */
  lemma UnquoteUnwrapped(v: string)
    requires !(StartsWith(v, "'") && EndsWith(v, "'"))
    requires !(StartsWith(v, "\"") && EndsWith(v, "\""))
    ensures Unquote(v) == v
  {
  }

  /** The call the orchestrator writes for generated SQL (lines 179-182). */
  function QueryCallFor(sql: string): string {
    OpenTag + "queryTool(sqlQuery='" + EscapeQuote(sql, '\'') + "')</tool_code>"
  }

  lemma QueryCallShape(sql: string)
    ensures QueryCallFor(sql) == CallText("queryTool", "sqlQuery='" + EscapeQuote(sql, '\'') + "'")
  {
    var e := EscapeQuote(sql, '\'');
    calc {
      QueryCallFor(sql);
      OpenTag + "queryTool(sqlQuery='" + e + "')</tool_code>";
      { assert "queryTool(sqlQuery='" == "queryTool" + "(" + "sqlQuery='";
        assert "')</tool_code>" == "'" + CloseTag; }
      OpenTag + "queryTool" + "(" + ("sqlQuery='" + e + "'") + CloseTag;
    }
  }

  lemma QueryCallArgsOneLine(sql: string)
    requires NoLineTerminator(sql)
    ensures NoLineTerminator("sqlQuery='" + EscapeQuote(sql, '\'') + "'")
  {
    var e := EscapeQuote(sql, '\'');
    var args := "sqlQuery='" + e + "'";
    EscapeKeepsLine(sql, '\'');
    forall k | 0 <= k < |args| ensures !IsLineTerminator(args[k]) {
      if 10 <= k < 10 + |e| {
        assert args[k] == e[k - 10];
      }
    }
  }

  /** The backtracking stops at the last closing tag in the range. */
  lemma {:induction false} LastCloseIs(s: string, lo: nat, j: nat, hi: nat)
    requires lo <= j <= hi <= |s| && HasAt(s, j, CloseTag)
    requires forall j' :: j < j' <= hi ==> !HasAt(s, j', CloseTag)
    ensures LastCloseIn(s, lo, hi) == Some(j)
    decreases hi - j
  {
    if hi > j {
      LastCloseIs(s, lo, j, hi - 1);
    }
  }

  /** When the whole text is one match, the attempt at 0 returns exactly it. */
  lemma MatchAtWhole(s: string, name: string, args: string)
    requires s == CallText(name, args)
    requires |name| > 0 && AllWordChars(name) && NoLineTerminator(args)
    ensures MatchAt(s, 0) == Some(ToolCall(0, name, args))
  {
    var argStart := |OpenTag| + |name| + 1;
    var argEnd := argStart + |args|;
    assert HasAt(s, 0, CallText(name, args));
    CallAtParts(s, 0, name, args);
    NameIsWordRun(s, |OpenTag|, name);
    ArgsWithinLine(s, argStart, args);
    var le := LineEnd(s, argStart);
    assert argEnd + |CloseTag| == |s|;
    LastCloseIs(s, argStart, argEnd, le);
    assert s[|OpenTag|..|OpenTag| + |name|] == name;
    assert s[argStart..argEnd] == args;
  }

  /** The synthesized call is itself a well-formed single-line tool call for
      `queryTool` whose value unquotes to the SQL, when the SQL is one line. */
  lemma QueryCallForMatches(sql: string)
    requires NoLineTerminator(sql)
    ensures MatchToolCall(QueryCallFor(sql)) ==
            Some(ToolCall(0, "queryTool", "sqlQuery='" + EscapeQuote(sql, '\'') + "'"))
    ensures Unquote("'" + EscapeQuote(sql, '\'') + "'") == sql
  {
    var e := EscapeQuote(sql, '\'');
    var s := QueryCallFor(sql);
    var args := "sqlQuery='" + e + "'";
    QueryCallShape(sql);
    QueryCallArgsOneLine(sql);
    MatchAtWhole(s, "queryTool", args);
    assert MatchToolCall(s) == MatchAt(s, 0);
    UnquoteEscaped(sql, '\'');
    assert "'" + e + "'" == ['\''] + e + ['\''];
  }

  lemma {:induction false} EscapeKeepsLine(s: string, q: char)
    requires NoLineTerminator(s) && !IsLineTerminator(q)
    ensures NoLineTerminator(EscapeQuote(s, q))
  {
    if |s| > 0 {
      EscapeKeepsLine(s[1..], q);
      var head := if s[0] == q then ['\\', q] else [s[0]];
      var e := EscapeQuote(s, q);
      assert e == head + EscapeQuote(s[1..], q);
      forall k | 0 <= k < |e| ensures !IsLineTerminator(e[k]) {
        if k >= |head| {
          assert e[k] == EscapeQuote(s[1..], q)[k - |head|];
        }
      }
    }
  }
}
